=== FILE: README.md ===
# Web documentation retrieval, modelled in Dafny

The web-docs-retrieval skill turns one web page into a markdown document. It
has two scripts.

`fetch_web_docs.py` fetches the page and takes its title. It derives a
kebab-case slug from the title and downloads every `<img>` with a non-empty
`src` into `blogs/images/<slug>/`. It builds a map from each image URL it saw to the local
path. It converts the HTML to markdown and rewrites image references through
the map, longest URL first. Finally it puts a YAML front matter ahead of the
markdown and saves the result as `<slug>.md`.

`fix_image_refs.py` repairs an existing document offline. Every reference
`![alt](/_next/image?url=...)` is pointed at an `image_*.png` file already in
the article's image directory. Each reference takes the first file no earlier
reference has used.

The model is functional: strings are `seq<char>`, and the image map is a
sequence of entries in insertion order (Python `dict` semantics). Each script
step is a pure function. The library calls the scripts make are fields of an
`Env` value: `urljoin`, `urlparse(...).path`, MD5, the download outcome and
`html2text`.

Modules, one per file:

- `Wrappers`: `Option` and `Result`.
- `Text`: the Python `str` operations used. These are `isspace`, `in`,
  `startswith`, `replace`, `split`, `join` and `strip`, plus deleting a
  character class with `re.sub`.
- `Slug`: `slugify`.
- `Url`: `extract_actual_image_url`, which both scripts define identically.
  It uses `urlparse(...).query`, `parse_qs` (blank values dropped, `+` read as
  a space, then percent-decoded) and a second `unquote`.
- `Oracles`: the `Env` of library functions.
- `Dicts`: an insertion-ordered dict with `get` and item assignment.
- `Images`: the file name and path in `download_image`, and the loop of
  `process_images`.
- `Rewriter`: the stable longest-first sort and the replace loop of
  `convert_to_markdown`.
- `Frontmatter`: `generate_frontmatter`.
- `Retrieval`: `retrieve`, which composes the steps above.
- `Repair`: `get_image_filename` and `fix_markdown_images`.

Some behaviours the proofs bring out:

- The proxy `url` value is decoded twice. `parse_qs` decodes it once and
  `unquote` again, so a target holding `%41` comes back as `A`.
- In the repair tool, which file a reference gets depends only on how many
  references came before it. The CDN hash computed from the URL plays no part.
- When at least two `image_*.png` files exist, a reference that occurs twice
  takes two files and counts twice. The first
  `replace` already rewrote both copies, so neither rewritten copy refers to
  the second file.
- Only `download_image` creates directories: `mkdir(parents=True)` on
  `blogs/images/<slug>/`, which also creates `blogs/`, for every image with a
  non-empty `src`. On a fresh base directory, a page with no usable `src`
  reaches `save_markdown` with `blogs/` missing, and the write fails. Whether
  `<slug>.md` can be written is therefore an input of `Retrieval.Retrieve`.

## Model

| member | source | states |
|---|---|---|
| Slug.Slugify | skills/web-docs-retrieval/scripts/fetch_web_docs.py:42-48 | The slug holds only lower-case ASCII letters, digits, `_` and `-`. It neither starts nor ends with `-` and never has two `-` in a row. |
| Slug.CollapseSeparators | skills/web-docs-retrieval/scripts/fetch_web_docs.py:47 | After each run of `-` and whitespace becomes one `-`, no two dashes are adjacent. A first character that is not a separator is kept. |
| Slug.CollapseRun | skills/web-docs-retrieval/scripts/fetch_web_docs.py:47 | A word without separators is kept as it is, and the whole run of `-` and whitespace after it becomes exactly one `-`, before the rest is collapsed in turn. |
| Slug.HelloWorldSlug | skills/web-docs-retrieval/scripts/fetch_web_docs.py:42-48 | The title `Hello World` gives the slug `hello-world`. |
| Slug.SlugFixpoint | skills/web-docs-retrieval/scripts/fetch_web_docs.py:42-48 | A string already in slug shape is its own slug. |
| Slug.SlugifyIdempotent | skills/web-docs-retrieval/scripts/fetch_web_docs.py:42-48 | Slugifying a slug gives the same slug. |
| Slug.SlugifyKeepsWords | skills/web-docs-retrieval/scripts/fetch_web_docs.py:45-48 | The word characters of the slug are exactly those of the lower-cased title, in order. Only other characters are deleted or merged. |
| Retrieval.ImagesDirMessage | skills/web-docs-retrieval/scripts/fetch_web_docs.py:264 | The directory named in the success message is the slug of the file name without `.md`. That is the directory the images were saved in. |
| Url.FirstValue | skills/web-docs-retrieval/scripts/fetch_web_docs.py:127-130 | `parse_qs(q)[key][0]` is absent iff no pair has that name. Otherwise it is the value of the first pair with that name. |
| Url.ParsePiece | skills/web-docs-retrieval/scripts/fetch_web_docs.py:127 | A query piece yields a pair iff it has an `=` followed by at least one character. Blank values are dropped. |
| Url.ExtractActualImageUrl | skills/web-docs-retrieval/scripts/fetch_web_docs.py:121-133 | A URL without `/_next/image`, or without a non-empty `url` parameter, is returned unchanged. Otherwise the result is the first `url` value, percent-decoded once more. |
| Url.QueryOfProxyUrl | skills/web-docs-retrieval/scripts/fetch_web_docs.py:126 | The query of `prefix?url=value...` is everything after the `?`. |
| Url.ParseProxyQuery | skills/web-docs-retrieval/scripts/fetch_web_docs.py:127-128 | In a query starting `url=value`, the first `url` value is `value` with `+` read as a space and decoded once. |
| Url.ProxyValueDecodedTwice | skills/web-docs-retrieval/scripts/fetch_web_docs.py:125-131 | A proxy URL `prefix?url=value&...` resolves to `value` decoded twice: once by `parse_qs`, once by `unquote`. |
| Url.DecodeEncode | skills/web-docs-retrieval/scripts/fetch_web_docs.py:130 | On ASCII text, percent-decoding inverts URL-component encoding. |
| Url.ProxyRoundTrip | skills/web-docs-retrieval/scripts/fix_image_refs.py:12-20 | An ASCII target without `%`, carried percent-encoded in the `url` parameter, is recovered exactly. Both scripts share this function. |
| Url.DoubleDecodeExample | skills/web-docs-retrieval/scripts/fetch_web_docs.py:130 | The target `a%41`, carried as `a%2541`, comes back as `aA`: the second decoding shows. |
| Images.Basename | skills/web-docs-retrieval/scripts/fetch_web_docs.py:92 | The base name has no `/`. It is the end of the path, preceded by `/` when shorter than the path. |
| Images.FileName | skills/web-docs-retrieval/scripts/fetch_web_docs.py:91-98 | The file name is the base name of the URL path when that contains a `.`. Otherwise it is `image_` + the first 8 MD5 hex digits + `.png`, always 18 characters. |
| Images.DownloadImage | skills/web-docs-retrieval/scripts/fetch_web_docs.py:83-119 | A path is returned iff the download succeeds. It is `images/<slug>/<file name>`. |
| Images.DownloadPathParts | skills/web-docs-retrieval/scripts/fetch_web_docs.py:115 | The returned path splits at `/` into exactly `images`, the slug and the file name. |
| Dicts.Put | skills/web-docs-retrieval/scripts/fetch_web_docs.py:156-158 | `d[k] = v` keeps the key order, appending `k` only when new. `k` maps to `v` and every other entry is unchanged. |
| Dicts.GetPutSame | skills/web-docs-retrieval/scripts/fetch_web_docs.py:156 | After `d[k] = v`, looking `k` up gives `v`. |
| Dicts.GetPutOther | skills/web-docs-retrieval/scripts/fetch_web_docs.py:156-158 | Assigning one key leaves every other key's lookup unchanged. |
| Images.StepKeys | skills/web-docs-retrieval/scripts/fetch_web_docs.py:141-158 | One iteration adds exactly the keys its element contributes. An element contributes nothing when its `src` is empty or absent or the download fails. Otherwise it adds its absolute URL and its unwrapped URL. |
| Images.StepValues | skills/web-docs-retrieval/scripts/fetch_web_docs.py:153-158 | After one iteration, each entry is either an earlier entry in place or holds a key this element adds, mapped to this element's download path. |
| Images.ProcessImagesKeys | skills/web-docs-retrieval/scripts/fetch_web_docs.py:135-160 | A key is in the map iff some element with a non-empty `src` was downloaded and the key is that element's URL. A `src` already starting with `http://` or `https://` is used as is, others are joined to the page URL. The unwrapped form is also a key. |
| Images.ProcessImagesValues | skills/web-docs-retrieval/scripts/fetch_web_docs.py:153-158 | Every value in the map is the download path returned for an element that put that entry's key in the map. |
| Images.ValueFollowsKey | skills/web-docs-retrieval/scripts/fetch_web_docs.py:156-158 | Without nested proxies, a key an element adds maps to that element's download path. |
| Images.BothFormsMapToPath | skills/web-docs-retrieval/scripts/fetch_web_docs.py:154-158 | Without nested proxies, a downloaded element's as-seen URL and its unwrapped URL both map to its download path. |
| Rewriter.SortByLength | skills/web-docs-retrieval/scripts/fetch_web_docs.py:169 | The sorted keys are a permutation of the map's entries, with key lengths never increasing. |
| Rewriter.SortStable | skills/web-docs-retrieval/scripts/fetch_web_docs.py:169 | Keys of equal length keep their insertion order. |
| Rewriter.LongerKeyFirst | skills/web-docs-retrieval/scripts/fetch_web_docs.py:168-174 | When one key contains another, different key, the containing key is replaced first. |
| Rewriter.RewriteUnchanged | skills/web-docs-retrieval/scripts/fetch_web_docs.py:165-176 | Markdown in which no image URL occurs comes back unchanged. |
| Rewriter.SortUnique | skills/web-docs-retrieval/scripts/fetch_web_docs.py:169 | Sorting the keys of a dict lists each key once. |
| Rewriter.WholeKeyReplaced | skills/web-docs-retrieval/scripts/fetch_web_docs.py:165-176 | An occurrence of a key is replaced whole by that key's path, whatever shorter keys occur inside it. Side conditions: no other key at least as long occurs in the text, and no other key occurs in the text once the path is in. |
| Rewriter.LongestFirstExample | skills/web-docs-retrieval/scripts/fetch_web_docs.py:168-174 | With keys `x/a` and `x/a?v`, an occurrence of `x/a?v` becomes its own path. Insertion order would instead leave the other path followed by `?v`. |
| Text.ReplaceAllAbsent | skills/web-docs-retrieval/scripts/fetch_web_docs.py:174 | `str.replace` with a non-empty pattern that does not occur leaves the text unchanged. |
| Text.ReplaceAllSkip | skills/web-docs-retrieval/scripts/fetch_web_docs.py:174 | `str.replace` copies through a prefix in which no occurrence of the pattern starts. |
| Text.ReplaceOnce | skills/web-docs-retrieval/scripts/fix_image_refs.py:91 | An occurrence of the pattern is replaced and the text around it is kept, when no occurrence starts before it and the pattern does not occur after it. |
| Frontmatter.FirstParagraph | skills/web-docs-retrieval/scripts/fetch_web_docs.py:185 | There is no match iff no `\n\n` is followed by a character. Otherwise the group starts right after the first such `\n\n` and ends at the first `\n\n` at least one character later, or at the end. |
| Frontmatter.FirstParagraphOf | skills/web-docs-retrieval/scripts/fetch_web_docs.py:185 | When the text opens with one line and a blank line, a single-line paragraph after that blank line, ended by another blank line or the end, is the group. |
| Frontmatter.Cleaned | skills/web-docs-retrieval/scripts/fetch_web_docs.py:187-189 | The stripped, cleaned paragraph holds none of `#`, `*`, backquote, `[`, `]`, `(` and `)`. Every other character of the stripped paragraph is kept, as often as it occurs there and in its order. |
| Frontmatter.Truncate | skills/web-docs-retrieval/scripts/fetch_web_docs.py:191-192 | Text of at most 200 characters is kept. Longer text becomes its first 197 characters followed by `...`, exactly 200. |
| Frontmatter.Description | skills/web-docs-retrieval/scripts/fetch_web_docs.py:184-194 | The description has at most 200 characters and none of those markup characters. Without a paragraph it is `Documentation retrieved from web.`; otherwise it is the paragraph cleaned and truncated. |
| Frontmatter.CleanParagraph | skills/web-docs-retrieval/scripts/fetch_web_docs.py:185-192 | When the text opens with one line and a blank line, a single-line first paragraph that is short, unpadded and free of markup becomes the description unchanged. |
| Frontmatter.HeaderOpens | skills/web-docs-retrieval/scripts/fetch_web_docs.py:198 | The front matter opens with the `---` line. |
| Frontmatter.HeaderFields | skills/web-docs-retrieval/scripts/fetch_web_docs.py:182-206 | Split at newlines, the front matter gives back, in order: `---`, title, url, retrieved, `tags: []`, description, `---` and an empty line. |
| Retrieval.Retrieve | skills/web-docs-retrieval/scripts/fetch_web_docs.py:218-249 | The result is a failure iff the fetch fails or `<slug>.md` cannot be written; a failed fetch gives its own error. The slug is the slug of the title, and the file name is the slug plus `.md`. The map is the image loop over the page's `src` attributes. The markdown is `html2text` of the page with the image URLs rewritten through that map. The content is the front matter, built from that markdown, followed by it. |
| Retrieval.SavedLayout | skills/web-docs-retrieval/scripts/fetch_web_docs.py:240-243 | The saved text opens with `---` and begins with the front matter. After the front matter comes exactly the rewritten markdown. |
| Retrieval.NoImagesNoRewrite | skills/web-docs-retrieval/scripts/fetch_web_docs.py:232-237 | A page without images saves an empty map and the converted markdown as it is. |
| Repair.HashFromParts | skills/web-docs-retrieval/scripts/fix_image_refs.py:22-31 | The result is absent iff no path segment holds a `-`. Otherwise it is the first `-`-piece of the last segment holding a `-`, and contains no `-`. |
| Repair.HashIsSegmentPrefix | skills/web-docs-retrieval/scripts/fix_image_refs.py:27-30 | The hash is that segment up to its first `-`. |
| Repair.ImageFiles | skills/web-docs-retrieval/scripts/fix_image_refs.py:57 | The glob keeps exactly the listed names matching `image_*.png`, so it is empty iff none matches. |
| Repair.ImageFilesOrdered | skills/web-docs-retrieval/scripts/fix_image_refs.py:57 | The files come in listing order: they are the listing with the other names left out. |
| Repair.ImageFilesDistinct | skills/web-docs-retrieval/scripts/fix_image_refs.py:57 | The files found are distinct. |
| Repair.FirstUnclaimed | skills/web-docs-retrieval/scripts/fix_image_refs.py:74-78 | No file is chosen iff every file is already used. A chosen file is the first file in listing order not yet used. |
| Repair.Assign | skills/web-docs-retrieval/scripts/fix_image_refs.py:73-85 | There are at most as many replacements as matches. Each uses a listed file, and its new path is `images/<slug>/<file>`. |
| Repair.AssignNoReuse | skills/web-docs-retrieval/scripts/fix_image_refs.py:76 | No file is used by two replacements. |
| Repair.AssignInOrder | skills/web-docs-retrieval/scripts/fix_image_refs.py:73-85 | There are as many replacements as the smaller of the number of matches and of files. The k-th uses the k-th file and keeps the k-th match's alt text and URL. |
| Repair.AssignIgnoresUrls | skills/web-docs-retrieval/scripts/fix_image_refs.py:63-78 | Two match lists of the same length get the same files: the URLs and the CDN hash from them do not affect the choice. |
| Repair.FixMarkdownImages | skills/web-docs-retrieval/scripts/fix_image_refs.py:33-99 | It stops before writing when there are no matches, and also when the images directory is missing. Otherwise the count is at most the number of matches. |
| Repair.FixedCount | skills/web-docs-retrieval/scripts/fix_image_refs.py:99 | The reported count is the smaller of the number of matches and of `image_*.png` files. |
| Repair.NoFilesUnchanged | skills/web-docs-retrieval/scripts/fix_image_refs.py:57-99 | With no `image_*.png` file, the content is written back unchanged with a count of 0. |
| Repair.FixSingleReference | skills/web-docs-retrieval/scripts/fix_image_refs.py:87-91 | A single proxy reference becomes `![alt](images/<slug>/<file>)` with the same alt text. The text around it is kept. |
| Repair.DuplicateConsumesFile | skills/web-docs-retrieval/scripts/fix_image_refs.py:76-99 | A text holding the same reference twice gives two matches. Both copies are rewritten to the first file, the count is 2, and neither rewritten copy refers to the second file. |

## Left out

- Slug.Slugify: only ASCII titles are modelled. Python's `\w`, `\s` and `lower()` are Unicode-aware, while here a word character is an ASCII letter, digit or `_`.
- Retrieval.Retrieve: the fetched title must be ASCII, for the same reason.
- Retrieval.Retrieve: a `ValueError` from `urljoin` or `urlparse` in the image loop (fetch_web_docs.py:147, 150, outside any `try`) is not modelled; `Env.urljoin` and `Url.UrlQuery` always return.
- Retrieval.Retrieve: why the write fails (a missing `blogs/`, permissions) is not modelled; the outcome is the `writeError` input.
- Url.PercentDecode: each `%XX` decodes to the character with code `XX`. `unquote` decodes byte sequences as UTF-8 (with replacement characters), so the two differ above `%7F`: `%E9` gives U+FFFD in Python.
- Url.EncodeChar: the encoder the round trips are stated with is defined on ASCII only. `quote` encodes other characters as their UTF-8 bytes, which the single-byte model does not describe.
- Url.DecodeEncode: stated for ASCII text, where one byte per character is what Python encodes and decodes.
- Url.ProxyRoundTrip: stated for ASCII targets without `%`, for the same reason.
- Rewriter.WholeKeyReplaced: the first character of the key must not occur before the occurrence, so that it is the first occurrence. Overlapping or repeated occurrences are not covered.
- Url.UrlQuery: `urlsplit` raising `ValueError` on a malformed bracketed host is not modelled.
- Images.BothFormsMapToPath: holds only when no unwrapped URL is itself a proxy URL. Otherwise a later element can overwrite a key with another path, and `Images.ProcessImagesValues` states what still holds.
- Rewriter.RewriteUnchanged: stated for non-empty keys. Replacing an empty key inserts the path between all characters.
- Frontmatter.HeaderFields: stated for fields without line breaks. A description may span lines, and then the front matter has more lines.
- Repair.FixSingleReference: stated for text with no `!` before the reference. That rules out an earlier, overlapping occurrence.
- Repair.FixMarkdownImages: a `ValueError` from `urlparse` while the matches are processed (fix_image_refs.py:63 and :68, outside any `try`) is not modelled. For a decoded URL such as `https://[x` the script stops before the write at :96, where the model returns `Fixed`.
- Frontmatter.FirstParagraphOf: stated for text whose opening, before the first blank line, is one line, and for a one-line paragraph. `Frontmatter.FirstParagraph` characterises the group for every text.
- Frontmatter.CleanParagraph: stated under the same one-line conditions as `Frontmatter.FirstParagraphOf`.
- Repair.DuplicateConsumesFile: stated for a new path shorter than the proxy URL, the usual case, since a proxy reference carries a whole encoded URL. Also stated only when no `!` occurs in the alt text, the new path or the text between the copies, and no `)` in the URL, which the match pattern already excludes.
- Page fetching and title extraction (`fetch_content`): HTTP and BeautifulSoup are foreign code. The fetched page (HTML, title, `src` attributes) or the error is an input to `Retrieval.Retrieve`.
- Image download: the HTTP request, streaming and file write are I/O. `Env.fetched` says whether the download for an element succeeds.
- `urljoin`, `urlparse(...).path`, MD5 and `html2text`: library code, passed in as functions of `Env`. MD5 is constrained only to 32 lower-case hex digits.
- `get_image_filename` is modelled on the list of path segments (`Repair.HashFromParts`), because the URL path comes from `urlparse`.
- Reading and writing the markdown file, `mkdir` and the directory existence test are file-system effects. The existence test is the `dirExists` input.
- The order `glob` yields files in is not specified by Python. The directory listing is an input sequence in that order.
- `re.findall` of the proxy-reference pattern in `fix_markdown_images`: regex engine behaviour. The matches are an input list of (alt, URL) pairs.
- `datetime.now()` is a clock. The date is the `today` parameter.
- `print` output, `save_markdown`'s message, the CLI entry points, argument checks and exit codes: console I/O.
- The constructor's directory set-up and `html2text` options: configuration of foreign code.
- `agents/hello-world/agent.py` is not part of this model. It is a single remote API call with no logic of its own.

=== FILE: dicts.dfy ===
/**
  A Python `dict` from strings to strings, as the sequence of its entries in
  insertion order: assigning to a key already present changes its value in
  place, assigning to a new key appends it.
 */
module Dicts {
  import opened Wrappers

  datatype Entry = Entry(key: string, value: string)

  predicate UniqueKeys(d: seq<Entry>) {
    forall i, j :: 0 <= i < j < |d| ==> d[i].key != d[j].key
  }

  /** A dict holds each key at most once. */
  type Dict = d: seq<Entry> | UniqueKeys(d)

  function Keys(d: seq<Entry>): (ks: seq<string>)
    ensures |ks| == |d|
    ensures forall i :: 0 <= i < |d| ==> ks[i] == d[i].key
  {
    seq(|d|, i requires 0 <= i < |d| => d[i].key)
  }

  /** Position of the entry for `k`, or `|d|` when there is none. */
  function IndexOfKey(d: Dict, k: string): (r: nat)
    ensures r <= |d|
    ensures r < |d| ==> d[r].key == k
    ensures forall j :: 0 <= j < r ==> d[j].key != k
    ensures r == |d| <==> k !in Keys(d)
  {
    if d == [] then 0
    else if d[0].key == k then 0
    else
      TailUnique(d);
      KeysTail(d, k);
      1 + IndexOfKey(d[1..], k)
  }

  /** A key other than the first entry's is a key of the dict iff it is one of the rest. */
  lemma KeysTail(d: seq<Entry>, k: string)
    requires d != [] && d[0].key != k
    ensures k in Keys(d) <==> k in Keys(d[1..])
  {
    KeysCons(d);
    var tail := Keys(d[1..]);
    assert k in [d[0].key] + tail <==> k in tail;
  }

  lemma KeysCons(d: seq<Entry>)
    requires d != []
    ensures Keys(d) == [d[0].key] + Keys(d[1..])
  {
  }

  lemma TailUnique(d: Dict)
    requires d != []
    ensures UniqueKeys(d[1..])
  {
    forall i, j | 0 <= i < j < |d| - 1 ensures d[1..][i].key != d[1..][j].key {
      assert d[1..][i] == d[i + 1] && d[1..][j] == d[j + 1];
    }
  }

  /** `d.get(k)` */
  function Get(d: Dict, k: string): (r: Option<string>)
    ensures r.Some? <==> k in Keys(d)
    ensures r.Some? ==> exists i :: 0 <= i < |d| && d[i] == Entry(k, r.value)
  {
    var i := IndexOfKey(d, k);
    if i < |d| then Some(d[i].value) else None
  }

  /** `d[k] = v` */
  function Put(d: Dict, k: string, v: string): (r: Dict)
    ensures Keys(r) == if k in Keys(d) then Keys(d) else Keys(d) + [k]
    ensures forall i :: 0 <= i < |r| && r[i].key == k ==> r[i].value == v
    ensures forall i :: 0 <= i < |r| && r[i].key != k ==> i < |d| && r[i] == d[i]
  {
    var i := IndexOfKey(d, k);
    if i < |d| then
      var r := d[i := Entry(k, v)];
      assert Keys(r) == Keys(d);
      assert forall j :: 0 <= j < |d| && d[j].key == k ==> j == i;
      r
    else
      var r := d + [Entry(k, v)];
      assert Keys(r) == Keys(d) + [k];
      r
  }

  /** After `d[k] = v` the keys are the keys from before and `k`. */
  lemma PutKeys(d: Dict, k: string, v: string, x: string)
    ensures x in Keys(Put(d, k, v)) <==> x in Keys(d) || x == k
  {
  }

  /** After `d[k] = v`, looking `k` up gives `v`. */
  lemma GetPutSame(d: Dict, k: string, v: string)
    ensures Get(Put(d, k, v), k) == Some(v)
  {
    var r := Put(d, k, v);
    var i := IndexOfKey(r, k);
    assert k in Keys(r);
    assert r[i].key == k;
  }

  /** Assigning to `k` changes no other key's lookup. */
  lemma GetPutOther(d: Dict, k: string, v: string, other: string)
    requires other != k
    ensures Get(Put(d, k, v), other) == Get(d, other)
  {
    var r := Put(d, k, v);
    var a, b := IndexOfKey(r, other), IndexOfKey(d, other);
    if b < |d| {
      assert r[b] == d[b];
      assert r[b].key == other;
      assert a == b;
    } else {
      assert other !in Keys(r);
    }
  }
}

=== FILE: frontmatter.dfy ===
/**
  The YAML front matter written ahead of a retrieved page (`generate_frontmatter`):
  a description taken from the first paragraph of the markdown, cleaned of
  markup characters and shortened, and the fixed header template around it.
 */
module Frontmatter {
  import opened Wrappers
  import opened Text

  const DefaultDescription: string := "Documentation retrieved from web."
  const MaxDescription: nat := 200
  const Ellipsis: string := "..."
  const EmptyTags: string := "[]"

  /** A blank line (`\n\n`) starts at `i`. */
  predicate BreakAt(s: string, i: int) {
    0 <= i && i + 2 <= |s| && s[i] == '\n' && s[i + 1] == '\n'
  }

  /** The pattern `\n\n(.+?)(?:\n\n|\Z)` can start at `i`: a blank line with at least one character after it. */
  predicate ParagraphAt(s: string, i: int) {
    BreakAt(s, i) && i + 2 < |s|
  }

  /** The first match of the pattern starts at `i` and its group ends at `e`. */
  predicate FirstMatch(s: string, i: int, e: int) {
    && ParagraphAt(s, i)
    && (forall j :: 0 <= j < i ==> !ParagraphAt(s, j))
    && i + 3 <= e <= |s|
    && (e < |s| ==> BreakAt(s, e))
    && (forall k :: i + 3 <= k < e ==> !BreakAt(s, k))
  }

  /** The first place at or after `from` where the pattern can start, or `|s|`. */
  function NextParagraph(s: string, from: nat): (i: nat)
    requires from <= |s|
    ensures from <= i <= |s|
    ensures i < |s| ==> ParagraphAt(s, i)
    ensures forall j :: from <= j < i ==> !ParagraphAt(s, j)
    decreases |s| - from
  {
    if from == |s| || ParagraphAt(s, from) then from else NextParagraph(s, from + 1)
  }

  /** The first blank line at or after `from`, or `|s|`: where the lazy group stops. */
  function NextBreakOrEnd(s: string, from: nat): (e: nat)
    requires from <= |s|
    ensures from <= e <= |s|
    ensures e < |s| ==> BreakAt(s, e)
    ensures forall k :: from <= k < e ==> !BreakAt(s, k)
    decreases |s| - from
  {
    if from == |s| || BreakAt(s, from) then from else NextBreakOrEnd(s, from + 1)
  }

  /** Group 1 of `re.search(r'\n\n(.+?)(?:\n\n|\Z)', content, re.DOTALL)`, or `None` without a match. */
  function FirstParagraph(s: string): (r: Option<string>)
    ensures r.None? <==> forall i :: 0 <= i < |s| ==> !ParagraphAt(s, i)
    ensures r.Some? ==> exists i, e :: FirstMatch(s, i, e) && r.value == s[i + 2..e]
  {
    var i := NextParagraph(s, 0);
    if i == |s| then None
    else
      var e := NextBreakOrEnd(s, i + 3);
      assert FirstMatch(s, i, e);
      Some(s[i + 2..e])
  }

  /** The characters the description drops: `#`, `*`, backquote, brackets and parentheses. */
  predicate IsMarkup(c: char) {
    c == '#' || c == '*' || c == '`' || c == '[' || c == ']' || c == '(' || c == ')'
  }

  predicate NotMarkup(c: char) { !IsMarkup(c) }

  /**
    The cleaned first paragraph: surrounding whitespace stripped, then markup
    characters deleted; every other character of the stripped text is kept,
    in its order.
   */
  function Cleaned(paragraph: string): (r: string)
    ensures forall k :: 0 <= k < |r| ==> !IsMarkup(r[k])
    ensures forall c :: !IsMarkup(c) ==> multiset(r)[c] == multiset(Strip(paragraph, IsSpace))[c]
    ensures IsSubsequence(r, Strip(paragraph, IsSpace))
  {
    FilterCounts(Strip(paragraph, IsSpace), NotMarkup);
    FilterSubsequence(Strip(paragraph, IsSpace), NotMarkup);
    Filter(Strip(paragraph, IsSpace), NotMarkup)
  }

  /** Text over 200 characters is cut to its first 197 followed by `...`. */
  function Truncate(d: string): (r: string)
    ensures |r| <= MaxDescription
    ensures |d| <= MaxDescription ==> r == d
    ensures |d| > MaxDescription ==> |r| == MaxDescription && StartsWith(d, r[..MaxDescription - 3]) && r[MaxDescription - 3..] == Ellipsis
  {
    if |d| > MaxDescription then d[..MaxDescription - 3] + Ellipsis else d
  }

  /** The `description` field for markdown `content`. */
  function Description(content: string): (r: string)
    ensures |r| <= MaxDescription
    ensures forall k :: 0 <= k < |r| ==> !IsMarkup(r[k])
    ensures FirstParagraph(content).None? ==> r == DefaultDescription
    ensures FirstParagraph(content).Some? ==> r == Truncate(Cleaned(FirstParagraph(content).value))
  {
    match FirstParagraph(content)
    case None => DefaultDescription
    case Some(p) =>
      TruncateNoMarkup(Cleaned(p));
      Truncate(Cleaned(p))
  }

  /** Truncating text without markup characters gives text without them, as the ellipsis has none. */
  lemma TruncateNoMarkup(d: string)
    requires forall k :: 0 <= k < |d| ==> !IsMarkup(d[k])
    ensures forall k :: 0 <= k < |Truncate(d)| ==> !IsMarkup(Truncate(d)[k])
  {
    var r := Truncate(d);
    if |d| > MaxDescription {
      forall k | 0 <= k < |r| ensures !IsMarkup(r[k]) {
        if k < MaxDescription - 3 {
          assert r[k] == d[k];
        } else {
          assert r[k] == '.';
        }
      }
    }
  }

  /** The lines of the front matter, in order: the fields between two `---` lines, then an empty line. */
  function HeaderLines(title: string, url: string, retrieved: string, description: string): seq<string>
  {
    ["---", "title: " + title, "url: " + url, "retrieved: " + retrieved, "tags: " + EmptyTags,
     "description: " + description, "---", ""]
  }

  /** Each line followed by a newline. */
  function Lines(ls: seq<string>): (r: string)
    ensures ls != [] ==> r != "" && r[|r| - 1] == '\n'
  {
    if ls == [] then "" else ls[0] + "\n" + Lines(ls[1..])
  }

  /** `generate_frontmatter(title, url, content)`, with the retrieval date (`%Y-%m-%d`) passed in. */
  function Header(title: string, url: string, retrieved: string, content: string): string
  {
    Lines(HeaderLines(title, url, retrieved, Description(content)))
  }

  /** The header opens with the `---` line. */
  lemma HeaderOpens(title: string, url: string, retrieved: string, description: string)
    ensures StartsWith(Lines(HeaderLines(title, url, retrieved, description)), "---\n")
  {
    var ls := HeaderLines(title, url, retrieved, description);
    assert Lines(ls) == "---" + "\n" + Lines(ls[1..]);
  }

  /** Newline-terminated lines are the lines joined by newlines, with an empty piece after the last. */
  lemma {:induction false} LinesJoin(ls: seq<string>)
    ensures Lines(ls) == Join(ls + [""], '\n')
  {
    if ls != [] {
      LinesJoin(ls[1..]);
      assert (ls + [""])[1..] == ls[1..] + [""];
    }
  }

  /**
    When no field holds a line break, splitting the header at newlines gives
    back exactly its lines and the empty text after the final newline, so
    each field sits on its own line.
   */
  lemma {:induction false} HeaderFields(title: string, url: string, retrieved: string, description: string)
    requires '\n' !in title && '\n' !in url && '\n' !in retrieved && '\n' !in description
    ensures Split(Lines(HeaderLines(title, url, retrieved, description)), '\n')
        == HeaderLines(title, url, retrieved, description) + [""]
  {
    var ls := HeaderLines(title, url, retrieved, description) + [""];
    LinesJoin(HeaderLines(title, url, retrieved, description));
    NoNewline("title: ", title);
    NoNewline("url: ", url);
    NoNewline("retrieved: ", retrieved);
    NoNewline("description: ", description);
    assert forall i :: 0 <= i < |ls| ==> '\n' !in ls[i];
    SplitJoin(ls, '\n');
  }

  lemma NoNewline(a: string, b: string)
    requires '\n' !in a && '\n' !in b
    ensures '\n' !in a + b
  {
  }

  /**
    A paragraph set off by a blank line after a first line without line
    breaks, and ended by another blank line or the end of the text, is the
    first paragraph.
   */
  lemma {:induction false} FirstParagraphOf(before: string, paragraph: string, after: string)
    requires '\n' !in before && '\n' !in paragraph && paragraph != ""
    requires after == "" || StartsWith(after, "\n\n")
    ensures FirstParagraph(before + "\n\n" + paragraph + after) == Some(paragraph)
  {
    var s := before + "\n\n" + paragraph + after;
    var i, e := |before|, |before| + 2 + |paragraph|;
    forall j | 0 <= j < i ensures !ParagraphAt(s, j) {
      assert s[j] == before[j];
    }
    assert ParagraphAt(s, i);
    assert NextParagraph(s, 0) == i;
    forall k | i + 3 <= k < e ensures !BreakAt(s, k) {
      assert s[k] == paragraph[k - i - 2];
    }
    if after == "" {
      assert e == |s|;
    } else {
      assert s[e] == after[0] && s[e + 1] == after[1];
      assert BreakAt(s, e);
    }
    assert NextBreakOrEnd(s, i + 3) == e;
    assert s[i + 2..e] == paragraph;
  }

  /** A paragraph already clean and short becomes the description unchanged. */
  lemma CleanParagraph(before: string, paragraph: string, after: string)
    requires '\n' !in before && '\n' !in paragraph && paragraph != ""
    requires after == "" || StartsWith(after, "\n\n")
    requires !IsSpace(paragraph[0]) && !IsSpace(paragraph[|paragraph| - 1])
    requires forall k :: 0 <= k < |paragraph| ==> !IsMarkup(paragraph[k])
    requires |paragraph| <= MaxDescription
    ensures Description(before + "\n\n" + paragraph + after) == paragraph
  {
    FirstParagraphOf(before, paragraph, after);
    StripUnchanged(paragraph, IsSpace);
    FilterKeepsAll(paragraph, NotMarkup);
  }
}

=== FILE: images.dfy ===
/**
  Image discovery and download (`download_image`, `process_images`): the local
  file name chosen for an image URL, the path returned for a successful
  download, and the map from every URL form seen to that path, built in
  document order over the `src` attributes of the page's `img` elements.
 */
module Images {
  import opened Wrappers
  import opened Text
  import opened Url
  import opened Oracles
  import opened Dicts

  /** `os.path.basename(path)`: what follows the last `/`. */
  function Basename(path: string): (name: string)
    ensures '/' !in name
    ensures |name| <= |path| && name == path[|path| - |name|..]
    ensures |name| < |path| ==> path[|path| - |name| - 1] == '/'
  {
    if path == "" || path[|path| - 1] == '/' then ""
    else
      var name := Basename(path[..|path| - 1]) + [path[|path| - 1]];
      assert path == path[..|path| - 1] + [path[|path| - 1]];
      name
  }

  /**
    The local file name for an image URL: the base name of the URL's path when
    it has a `.`, otherwise `image_` followed by the first eight hex digits of
    the MD5 of the URL and `.png`.
   */
  function FileName(env: Env, url: string): (name: string)
    ensures name != "" && '/' !in name
    ensures '.' in Basename(env.urlPath(url)) ==> name == Basename(env.urlPath(url))
    ensures '.' !in Basename(env.urlPath(url)) ==>
      && |name| == 18
      && name == "image_" + env.md5Hex(url)[..8] + ".png"
      && forall i :: 6 <= i < 14 ==> IsLowerHexDigit(name[i])
  {
    var original := Basename(env.urlPath(url));
    if original == "" || '.' !in original then
      var digest := env.md5Hex(url);
      GeneratedName(digest);
      "image_" + digest[..8] + ".png"
    else original
  }

  /** `image_` + eight hex digits + `.png` is an 18-character name without `/`. */
  lemma GeneratedName(digest: HexDigest)
    ensures var name := "image_" + digest[..8] + ".png";
      && |name| == 18 && '/' !in name
      && forall i :: 6 <= i < 14 ==> IsLowerHexDigit(name[i])
  {
    var hash := digest[..8];
    var name := "image_" + hash + ".png";
    assert forall i :: 6 <= i < 14 ==> name[i] == hash[i - 6];
    assert forall i :: 0 <= i < |name| ==> name[i] != '/';
  }

  /** The path `download_image` returns, relative to the documents directory. */
  function DownloadPath(slug: string, name: string): string
  {
    "images/" + slug + "/" + name
  }

  /**
    `download_image(url, slug)`: the download path on success, `None` when
    anything in creating the directory, fetching or writing fails.
   */
  function DownloadImage(env: Env, attempt: nat, url: string, slug: string): (r: Option<string>)
    ensures r.Some? <==> env.fetched(attempt, url)
    ensures r.Some? ==> r.value == DownloadPath(slug, FileName(env, url))
  {
    if env.fetched(attempt, url) then Some(DownloadPath(slug, FileName(env, url))) else None
  }

  /** A download path splits back into the images directory, the slug and the file name. */
  lemma {:induction false} DownloadPathParts(slug: string, name: string)
    requires '/' !in slug && '/' !in name
    ensures Split(DownloadPath(slug, name), '/') == ["images", slug, name]
  {
    assert DownloadPath(slug, name) == "images" + ['/'] + (slug + ['/'] + name);
    SplitAtFirst("images", slug + ['/'] + name, '/');
    SplitAtFirst(slug, name, '/');
    SplitWithoutSeparator(name, '/');
  }

  /** A `src` that is not already `http://` or `https://` is resolved against the page URL. */
  function AbsoluteUrl(env: Env, base: string, src: string): string
  {
    if StartsWith(src, "http://") || StartsWith(src, "https://") then src else env.urljoin(base, src)
  }

  /** The `src` attribute of element `i`, with an absent attribute read as empty (both are skipped). */
  function SrcAt(srcs: seq<Option<string>>, i: nat): string
    requires i < |srcs|
  {
    match srcs[i]
    case Some(s) => s
    case None => ""
  }

  /** The URL of element `i` as it is used for the map key: absolute. */
  function AsSeen(env: Env, base: string, srcs: seq<Option<string>>, i: nat): string
    requires i < |srcs|
  {
    AbsoluteUrl(env, base, SrcAt(srcs, i))
  }

  /** The unwrapped URL of element `i`, which is what is downloaded. */
  function Canonical(env: Env, base: string, srcs: seq<Option<string>>, i: nat): string
    requires i < |srcs|
  {
    ExtractActualImageUrl(AsSeen(env, base, srcs, i))
  }

  /** Element `i` has a usable `src` and its image was downloaded. */
  predicate Downloaded(env: Env, base: string, srcs: seq<Option<string>>, i: nat)
    requires i < |srcs|
  {
    SrcAt(srcs, i) != "" && env.fetched(i, Canonical(env, base, srcs, i))
  }

  /** The local path of element `i`'s image. */
  function LocalPath(env: Env, base: string, slug: string, srcs: seq<Option<string>>, i: nat): string
    requires i < |srcs|
  {
    DownloadPath(slug, FileName(env, Canonical(env, base, srcs, i)))
  }

  /** Element `i` puts key `k` into the map. */
  predicate AddsKey(env: Env, base: string, srcs: seq<Option<string>>, i: nat, k: string)
  {
    && i < |srcs|
    && Downloaded(env, base, srcs, i)
    && (k == AsSeen(env, base, srcs, i) || k == Canonical(env, base, srcs, i))
  }

  /** One iteration of the loop of `process_images`, for element `i`. */
  function Step(env: Env, base: string, slug: string, srcs: seq<Option<string>>, i: nat, d: Dict): Dict
    requires i < |srcs|
  {
    if SrcAt(srcs, i) == "" then d
    else
      var src := AsSeen(env, base, srcs, i);
      var actual := ExtractActualImageUrl(src);
      match DownloadImage(env, i, actual, slug)
      case None => d
      case Some(path) =>
        var d1 := Put(d, src, path);
        if actual != src then Put(d1, actual, path) else d1
  }

  /** The loop of `process_images` run over the first `n` elements, with `step` as its body. */
  function Fold(step: (nat, Dict) -> Dict, n: nat): Dict
  {
    if n == 0 then [] else step(n - 1, Fold(step, n - 1))
  }

  /** The loop body as a function of the position, doing nothing past the last element. */
  function Body(env: Env, base: string, slug: string, srcs: seq<Option<string>>): (nat, Dict) -> Dict
  {
    (i: nat, d: Dict) => if i < |srcs| then Step(env, base, slug, srcs, i, d) else d
  }

  /** `process_images(soup, base_url, slug)`, given the `src` attributes of the `img` elements in document order. */
  function ProcessImages(env: Env, base: string, slug: string, srcs: seq<Option<string>>): Dict
  {
    Fold(Body(env, base, slug, srcs), |srcs|)
  }

  /** Each step adds to the keys exactly the keys element `i` adds. */
  lemma {:induction false} StepKeys(env: Env, base: string, slug: string, srcs: seq<Option<string>>, i: nat, d: Dict, k: string)
    requires i < |srcs|
    ensures k in Keys(Step(env, base, slug, srcs, i, d)) <==> k in Keys(d) || AddsKey(env, base, srcs, i, k)
  {
    if SrcAt(srcs, i) != "" {
      var src := AsSeen(env, base, srcs, i);
      var actual := ExtractActualImageUrl(src);
      assert actual == Canonical(env, base, srcs, i);
      match DownloadImage(env, i, actual, slug)
      case None =>
      case Some(path) =>
        assert Downloaded(env, base, srcs, i);
        var d1 := Put(d, src, path);
        PutKeys(d, src, path, k);
        if actual != src {
          PutKeys(d1, actual, path, k);
        }
    }
  }

  /** Each entry after a step is an entry from before, or one whose key element `i` adds, holding element `i`'s path. */
  lemma {:induction false} StepValues(env: Env, base: string, slug: string, srcs: seq<Option<string>>, i: nat, d: Dict, j: nat)
    requires i < |srcs|
    requires j < |Step(env, base, slug, srcs, i, d)|
    ensures var e := Step(env, base, slug, srcs, i, d)[j];
      || (j < |d| && e == d[j])
      || (AddsKey(env, base, srcs, i, e.key) && e.value == LocalPath(env, base, slug, srcs, i))
  {
  }

  /** Some position below `n` has `p` with `x`, stated by recursion on `n`. */
  predicate SomeBelow<T>(p: (nat, T) -> bool, n: nat, x: T)
  {
    n > 0 && (SomeBelow(p, n - 1, x) || p(n - 1, x))
  }

  lemma {:induction false} SomeBelowExists<T>(p: (nat, T) -> bool, n: nat, x: T)
    ensures SomeBelow(p, n, x) <==> exists i :: 0 <= i < n && p(i, x)
  {
    if n > 0 {
      SomeBelowExists(p, n - 1, x);
      if exists i :: 0 <= i < n && p(i, x) {
        var i :| 0 <= i < n && p(i, x);
        if i < n - 1 {
          assert exists i :: 0 <= i < n - 1 && p(i, x);
        }
      }
    }
  }

  /** When every step adds exactly the keys `adds` names for its position, the keys after `n` steps are those some earlier position adds. */
  lemma {:induction false} FoldKeys(step: (nat, Dict) -> Dict, n: nat, k: string, adds: (nat, string) -> bool)
    requires forall i: nat, d: Dict :: i < n ==> (k in Keys(step(i, d)) <==> k in Keys(d) || adds(i, k))
    ensures k in Keys(Fold(step, n)) <==> SomeBelow(adds, n, k)
  {
    if n > 0 {
      FoldKeys(step, n - 1, k, adds);
    }
  }

  /** When every step keeps the earlier entries in place and `origin` accounts for the others, `origin` accounts for every entry after `n` steps. */
  lemma {:induction false} FoldValues(step: (nat, Dict) -> Dict, n: nat, j: nat, origin: (nat, Entry) -> bool)
    requires forall i: nat, d: Dict, j: nat :: i < n && j < |step(i, d)| ==>
      (j < |d| && step(i, d)[j] == d[j]) || origin(i, step(i, d)[j])
    requires j < |Fold(step, n)|
    ensures SomeBelow(origin, n, Fold(step, n)[j])
  {
    var prev := Fold(step, n - 1);
    var e := Fold(step, n)[j];
    if j < |prev| && e == prev[j] {
      FoldValues(step, n - 1, j, origin);
    }
  }

  /** The keys of the map: exactly the as-seen and unwrapped URLs of the elements whose image was downloaded. */
  lemma {:induction false} ProcessImagesKeys(env: Env, base: string, slug: string, srcs: seq<Option<string>>, k: string)
    ensures k in Keys(ProcessImages(env, base, slug, srcs))
        <==> exists i :: 0 <= i < |srcs| && AddsKey(env, base, srcs, i, k)
  {
    var step := Body(env, base, slug, srcs);
    var adds := (i: nat, key: string) => AddsKey(env, base, srcs, i, key);
    forall i: nat, d: Dict | i < |srcs|
      ensures k in Keys(step(i, d)) <==> k in Keys(d) || adds(i, k)
    {
      StepKeys(env, base, slug, srcs, i, d, k);
    }
    FoldKeys(step, |srcs|, k, adds);
    SomeBelowExists(adds, |srcs|, k);
    if k in Keys(ProcessImages(env, base, slug, srcs)) {
      var i :| 0 <= i < |srcs| && adds(i, k);
      assert AddsKey(env, base, srcs, i, k);
    } else {
      forall i | 0 <= i < |srcs| ensures !AddsKey(env, base, srcs, i, k) {
        assert !adds(i, k);
      }
    }
  }

  /** Element `i` put entry `e` into the map: it adds `e`'s key and `e` holds element `i`'s path. */
  predicate Origin(env: Env, base: string, slug: string, srcs: seq<Option<string>>, e: Entry, i: nat)
  {
    AddsKey(env, base, srcs, i, e.key) && e.value == LocalPath(env, base, slug, srcs, i)
  }

  /** Every value in the map is the download path of an element that put that entry's key in the map. */
  lemma {:induction false} ProcessImagesValues(env: Env, base: string, slug: string, srcs: seq<Option<string>>, j: nat)
    requires j < |ProcessImages(env, base, slug, srcs)|
    ensures var e := ProcessImages(env, base, slug, srcs)[j];
      exists i :: 0 <= i < |srcs| && AddsKey(env, base, srcs, i, e.key) && e.value == LocalPath(env, base, slug, srcs, i)
  {
    var step := Body(env, base, slug, srcs);
    var origin := (i: nat, e: Entry) => Origin(env, base, slug, srcs, e, i);
    forall i: nat, d: Dict, j: nat | i < |srcs| && j < |step(i, d)|
      ensures (j < |d| && step(i, d)[j] == d[j]) || origin(i, step(i, d)[j])
    {
      StepValues(env, base, slug, srcs, i, d, j);
    }
    FoldValues(step, |srcs|, j, origin);
    var e := ProcessImages(env, base, slug, srcs)[j];
    SomeBelowExists(origin, |srcs|, e);
    var i :| 0 <= i < |srcs| && origin(i, e);
    assert Origin(env, base, slug, srcs, e, i);
  }

  /** No element's unwrapped URL is itself a proxy URL that unwraps further. */
  predicate NoNestedProxies(env: Env, base: string, srcs: seq<Option<string>>)
  {
    forall i :: 0 <= i < |srcs| && Downloaded(env, base, srcs, i) ==>
      ExtractActualImageUrl(Canonical(env, base, srcs, i)) == Canonical(env, base, srcs, i)
  }

  /**
    Each downloaded element's as-seen URL and unwrapped URL are both keys, and
    both map to that element's local path, when no unwrapped URL is itself a
    proxy URL (otherwise a later element may overwrite a key with another path).
   */
  lemma {:induction false} BothFormsMapToPath(env: Env, base: string, slug: string, srcs: seq<Option<string>>, i: nat)
    requires i < |srcs| && Downloaded(env, base, srcs, i)
    requires NoNestedProxies(env, base, srcs)
    ensures var m := ProcessImages(env, base, slug, srcs);
      && Get(m, AsSeen(env, base, srcs, i)) == Some(LocalPath(env, base, slug, srcs, i))
      && Get(m, Canonical(env, base, srcs, i)) == Some(LocalPath(env, base, slug, srcs, i))
  {
    var m := ProcessImages(env, base, slug, srcs);
    var seen, canon := AsSeen(env, base, srcs, i), Canonical(env, base, srcs, i);
    ValueFollowsKey(env, base, slug, srcs, seen, i);
    ValueFollowsKey(env, base, slug, srcs, canon, i);
  }

  lemma {:induction false} ValueFollowsKey(env: Env, base: string, slug: string, srcs: seq<Option<string>>, k: string, i: nat)
    requires AddsKey(env, base, srcs, i, k)
    requires NoNestedProxies(env, base, srcs)
    ensures Get(ProcessImages(env, base, slug, srcs), k) == Some(LocalPath(env, base, slug, srcs, i))
  {
    var m := ProcessImages(env, base, slug, srcs);
    ProcessImagesKeys(env, base, slug, srcs, k);
    assert k in Keys(m);
    var r := Get(m, k);
    var j :| 0 <= j < |m| && m[j] == Entry(k, r.value);
    ProcessImagesValues(env, base, slug, srcs, j);
    var i' :| 0 <= i' < |srcs| && AddsKey(env, base, srcs, i', k) && r.value == LocalPath(env, base, slug, srcs, i');
    SameCanonical(env, base, srcs, k, i);
    SameCanonical(env, base, srcs, k, i');
  }

  /** Without nested proxies, a key determines the unwrapped URL of every element that adds it. */
  lemma {:induction false} SameCanonical(env: Env, base: string, srcs: seq<Option<string>>, k: string, i: nat)
    requires AddsKey(env, base, srcs, i, k)
    requires NoNestedProxies(env, base, srcs)
    ensures ExtractActualImageUrl(k) == Canonical(env, base, srcs, i)
  {
  }
}

=== FILE: oracles.dfy ===
/**
  The library calls the retrieval script makes whose behaviour the model does
  not re-derive, passed in as plain functions.
 */
module Oracles {

  predicate IsLowerHexDigit(c: char) { '0' <= c <= '9' || 'a' <= c <= 'f' }

  /** What `hashlib.md5(...).hexdigest()` returns: 32 lower-case hex digits. */
  type HexDigest = s: string | |s| == 32 && forall i :: 0 <= i < |s| ==> IsLowerHexDigit(s[i])
    witness "00000000000000000000000000000000"

  datatype Env = Env(
    /** `urljoin(base, url)` */
    urljoin: (string, string) -> string,
    /** `urlparse(url).path` */
    urlPath: string -> string,
    /** `hashlib.md5(url.encode()).hexdigest()` */
    md5Hex: string -> HexDigest,
    /**
      Whether downloading `url` for the image element at position `i` succeeds:
      the directory is created, the GET answers with a success status and the
      body is written. Any of these raising makes `download_image` return `None`.
     */
    fetched: (nat, string) -> bool,
    /** `html2text` configured without line wrapping, links and images kept */
    html2text: string -> string)
}

=== FILE: repair.dfy ===
/**
  The offline repair tool (`fix_image_refs.py`): markdown image references
  whose target is a Next.js proxy URL are pointed at images already saved in
  the article's image directory, each reference taking the first listed
  `image_*.png` file not yet used.
 */
module Repair {
  import opened Wrappers
  import opened Text
  import opened Url
  import opened Oracles

  /** `get_image_filename`, given the URL's path: the part before the first `-` of the last path segment holding a `-`. */
  function HashFromParts(parts: seq<string>): (r: Option<string>)
    ensures r.None? <==> forall i :: 0 <= i < |parts| ==> '-' !in parts[i]
    ensures r.Some? ==> '-' !in r.value
    ensures r.Some? ==> exists i :: LastWithDash(parts, i) && r.value == Split(parts[i], '-')[0]
  {
    if parts == [] then None
    else
      var last := parts[|parts| - 1];
      if '-' in last then
        assert LastWithDash(parts, |parts| - 1);
        Some(Split(last, '-')[0])
      else
        LastWithDashInit(parts);
        HashFromParts(parts[..|parts| - 1])
  }

  /** When the last part has no `-`, the last part with one is found among the others. */
  lemma LastWithDashInit(parts: seq<string>)
    requires parts != [] && '-' !in parts[|parts| - 1]
    ensures forall i :: LastWithDash(parts[..|parts| - 1], i) ==> LastWithDash(parts, i) && parts[..|parts| - 1][i] == parts[i]
  {
  }

  /** `parts[i]` holds a `-` and no later part does. */
  predicate LastWithDash(parts: seq<string>, i: int) {
    0 <= i < |parts| && '-' in parts[i] && forall j :: i < j < |parts| ==> '-' !in parts[j]
  }

  /** `get_image_filename(url)`; the result is `None` when no path segment has a `-`. */
  function GetImageFilename(env: Env, url: string): Option<string>
  {
    HashFromParts(Split(env.urlPath(url), '/'))
  }

  /** The first piece of a split is everything before the first separator. */
  lemma {:induction false} SplitFirstPiece(s: string, sep: char)
    ensures Split(s, sep)[0] == s[..IndexOf(s, sep)]
  {
    if s != "" && s[0] != sep {
      SplitFirstPiece(s[1..], sep);
      assert s[..IndexOf(s, sep)] == [s[0]] + s[1..][..IndexOf(s[1..], sep)];
    }
  }

  /** The hash taken from a segment is that segment up to its first `-`. */
  lemma {:induction false} HashIsSegmentPrefix(parts: seq<string>)
    requires HashFromParts(parts).Some?
    ensures exists i :: LastWithDash(parts, i) && HashFromParts(parts).value == parts[i][..IndexOf(parts[i], '-')]
  {
    var i :| LastWithDash(parts, i) && HashFromParts(parts).value == Split(parts[i], '-')[0];
    SplitFirstPiece(parts[i], '-');
  }

  /** A file name the pattern `image_*.png` matches. */
  predicate IsImageFile(name: string) {
    |name| >= 10 && StartsWith(name, "image_") && name[|name| - 4..] == ".png"
  }

  /** `images_dir.glob("image_*.png")`, given the directory's file names in the order the listing yields them. */
  function ImageFiles(listing: seq<string>): (r: seq<string>)
    ensures |r| <= |listing|
    ensures forall i :: 0 <= i < |r| ==> IsImageFile(r[i]) && r[i] in listing
    ensures forall i :: 0 <= i < |listing| && IsImageFile(listing[i]) ==> listing[i] in r
    ensures r == [] <==> forall i :: 0 <= i < |listing| ==> !IsImageFile(listing[i])
  {
    if listing == [] then []
    else
      var rest := ImageFiles(listing[1..]);
      assert forall i :: 1 <= i < |listing| ==> listing[i] == listing[1..][i - 1];
      (if IsImageFile(listing[0]) then [listing[0]] else []) + rest
  }

  /** The glob keeps the listing's order: the files are the listing with the other names left out. */
  lemma {:induction false} ImageFilesOrdered(listing: seq<string>)
    ensures IsSubsequence(ImageFiles(listing), listing)
  {
    if listing != [] {
      var rest := ImageFiles(listing[1..]);
      ImageFilesOrdered(listing[1..]);
      if IsImageFile(listing[0]) {
        var r := [listing[0]] + rest;
        assert ImageFiles(listing) == r && r[0] == listing[0] && r[1..] == rest;
      } else {
        assert ImageFiles(listing) == [] + rest == rest;
        assert rest != [] ==> IsImageFile(rest[0]);
      }
    }
  }

  /** No name appears twice. */
  predicate Distinct(names: seq<string>) {
    forall i, j :: 0 <= i < j < |names| ==> names[i] != names[j]
  }

  /** Names in a directory listing are distinct, and so are the ones the pattern keeps. */
  lemma {:induction false} ImageFilesDistinct(listing: seq<string>)
    requires Distinct(listing)
    ensures Distinct(ImageFiles(listing))
  {
    if listing != [] {
      ImageFilesDistinct(listing[1..]);
      var rest := ImageFiles(listing[1..]);
      forall i | 0 <= i < |rest| ensures rest[i] != listing[0] {
        var k :| 0 <= k < |listing[1..]| && listing[1..][k] == rest[i];
        assert listing[k + 1] == rest[i];
      }
    }
  }

  /** One match of `!\[(.*?)\]\((/_next/image\?url=[^)]+)\)`: the alt text and the proxy URL. */
  datatype Match = Match(alt: string, url: string)

  /** One entry of `replacements`: alt text, proxy URL, chosen file and its relative path. */
  datatype Replacement = Replacement(alt: string, oldUrl: string, image: string, newPath: string)

  /** The path a reference to a file in the article's image directory gets. */
  function RelativePath(slug: string, image: string): string
  {
    "images/" + slug + "/" + image
  }

  /** The files already used by earlier replacements. */
  function Claimed(reps: seq<Replacement>): (r: seq<string>)
    ensures |r| == |reps|
    ensures forall i :: 0 <= i < |r| ==> r[i] == reps[i].image
  {
    seq(|reps|, i requires 0 <= i < |reps| => reps[i].image)
  }

  /** Position of the first file not yet used, or `|files|` when all are. */
  function FirstUnclaimedIndex(files: seq<string>, claimed: seq<string>): (i: nat)
    ensures i <= |files|
    ensures i < |files| ==> files[i] !in claimed
    ensures forall j :: 0 <= j < i ==> files[j] in claimed
  {
    if files == [] then 0
    else if files[0] !in claimed then 0
    else 1 + FirstUnclaimedIndex(files[1..], claimed)
  }

  /** The first file not yet used (`img not in [r[2] for r in replacements]`), or `None` when all are. */
  function FirstUnclaimed(files: seq<string>, claimed: seq<string>): (r: Option<string>)
    ensures r.None? <==> forall i :: 0 <= i < |files| ==> files[i] in claimed
    ensures r.Some? ==> r.value !in claimed && r.value in files
    ensures r.Some? ==> exists i :: 0 <= i < |files| && files[i] == r.value && forall j :: 0 <= j < i ==> files[j] in claimed
  {
    var i := FirstUnclaimedIndex(files, claimed);
    if i < |files| then Some(files[i]) else None
  }

  /** The loop over the matches: each match takes the first unused file, if any is left. */
  function Assign(matches: seq<Match>, files: seq<string>, slug: string): (r: seq<Replacement>)
    ensures |r| <= |matches|
    ensures forall i :: 0 <= i < |r| ==> r[i].image in files && r[i].newPath == RelativePath(slug, r[i].image)
  {
    if matches == [] then []
    else
      var prev := Assign(matches[..|matches| - 1], files, slug);
      var m := matches[|matches| - 1];
      match FirstUnclaimed(files, Claimed(prev))
      case None => prev
      case Some(image) => prev + [Replacement(m.alt, m.url, image, RelativePath(slug, image))]
  }

  /** No file is used by two replacements, whatever the listing holds. */
  lemma {:induction false} AssignNoReuse(matches: seq<Match>, files: seq<string>, slug: string)
    ensures Distinct(Claimed(Assign(matches, files, slug)))
  {
    if matches != [] {
      var prev := Assign(matches[..|matches| - 1], files, slug);
      AssignNoReuse(matches[..|matches| - 1], files, slug);
      var m := matches[|matches| - 1];
      match FirstUnclaimed(files, Claimed(prev))
      case None =>
      case Some(image) =>
        var r := prev + [Replacement(m.alt, m.url, image, RelativePath(slug, image))];
        assert Claimed(r) == Claimed(prev) + [image];
    }
  }

  /** With distinct files, once the first `k` are used the next one is the `k`-th, if there is one. */
  lemma FirstUnclaimedPrefix(files: seq<string>, k: nat)
    requires Distinct(files) && k <= |files|
    ensures FirstUnclaimed(files, files[..k]) == if k < |files| then Some(files[k]) else None
  {
    if k < |files| {
      assert files[k] !in files[..k];
    }
  }

  /**
    With distinct files, the `k`-th replacement belongs to the `k`-th match and
    uses the `k`-th file, and there are as many replacements as the smaller of
    the number of matches and the number of files.
   */
  lemma {:induction false} AssignInOrder(matches: seq<Match>, files: seq<string>, slug: string)
    requires Distinct(files)
    ensures var r := Assign(matches, files, slug);
      && |r| == (if |matches| < |files| then |matches| else |files|)
      && forall k :: 0 <= k < |r| ==> r[k].image == files[k] && r[k].alt == matches[k].alt && r[k].oldUrl == matches[k].url
  {
    if matches != [] {
      var init := matches[..|matches| - 1];
      var prev := Assign(init, files, slug);
      AssignInOrder(init, files, slug);
      ClaimedPrefix(prev, files);
      AssignNext(matches, files, slug);
      var m := matches[|matches| - 1];
      if |prev| < |files| {
        var added := Replacement(m.alt, m.url, files[|prev|], RelativePath(slug, files[|prev|]));
        ExtendInOrder(prev, matches, files, added);
      } else {
        KeepInOrder(prev, matches, files);
      }
    }
  }

  /** The `k`-th replacement uses the `k`-th file for the `k`-th match. */
  predicate InOrder(reps: seq<Replacement>, matches: seq<Match>, files: seq<string>) {
    && |reps| <= |files| && |reps| <= |matches|
    && forall k :: 0 <= k < |reps| ==> reps[k].image == files[k] && reps[k].alt == matches[k].alt && reps[k].oldUrl == matches[k].url
  }

  /** A replacement of the next match by the next file extends the order. */
  lemma ExtendInOrder(prev: seq<Replacement>, matches: seq<Match>, files: seq<string>, added: Replacement)
    requires matches != [] && |prev| == |matches| - 1 && |prev| < |files|
    requires InOrder(prev, matches[..|matches| - 1], files)
    requires added.image == files[|prev|] && added.alt == matches[|prev|].alt && added.oldUrl == matches[|prev|].url
    ensures InOrder(prev + [added], matches, files)
  {
    var r := prev + [added];
    forall k | 0 <= k < |r|
      ensures r[k].image == files[k] && r[k].alt == matches[k].alt && r[k].oldUrl == matches[k].url
    {
      if k < |prev| {
        assert r[k] == prev[k] && matches[..|matches| - 1][k] == matches[k];
      }
    }
  }

  /** Replacements in order for all but the last match are in order for all matches. */
  lemma KeepInOrder(prev: seq<Replacement>, matches: seq<Match>, files: seq<string>)
    requires matches != []
    requires InOrder(prev, matches[..|matches| - 1], files)
    ensures InOrder(prev, matches, files)
  {
    var init := matches[..|matches| - 1];
    forall k | 0 <= k < |prev|
      ensures prev[k].alt == matches[k].alt && prev[k].oldUrl == matches[k].url
    {
      assert init[k] == matches[k];
    }
  }

  /** Replacements holding the first files in order have claimed exactly those files. */
  lemma ClaimedPrefix(reps: seq<Replacement>, files: seq<string>)
    requires |reps| <= |files|
    requires forall k :: 0 <= k < |reps| ==> reps[k].image == files[k]
    ensures Claimed(reps) == files[..|reps|]
  {
  }

  /** Once the earlier matches hold the first files, the last match takes the next file, if one is left. */
  lemma AssignNext(matches: seq<Match>, files: seq<string>, slug: string)
    requires matches != [] && Distinct(files)
    requires var prev := Assign(matches[..|matches| - 1], files, slug); |prev| <= |files| && Claimed(prev) == files[..|prev|]
    ensures var prev := Assign(matches[..|matches| - 1], files, slug);
      var m := matches[|matches| - 1];
      Assign(matches, files, slug)
        == if |prev| < |files| then prev + [Replacement(m.alt, m.url, files[|prev|], RelativePath(slug, files[|prev|]))] else prev
  {
    var prev := Assign(matches[..|matches| - 1], files, slug);
    FirstUnclaimedPrefix(files, |prev|);
  }

  /** Which file each match gets depends only on how many matches there are: the proxy URLs and the hash computed from them play no part. */
  lemma {:induction false} AssignIgnoresUrls(m1: seq<Match>, m2: seq<Match>, files: seq<string>, slug: string)
    requires |m1| == |m2|
    ensures Claimed(Assign(m1, files, slug)) == Claimed(Assign(m2, files, slug))
  {
    if m1 != [] {
      AssignIgnoresUrls(m1[..|m1| - 1], m2[..|m2| - 1], files, slug);
      ClaimedStep(m1, files, slug);
      ClaimedStep(m2, files, slug);
    }
  }

  /** The files used after one more match: those used before, and the first unused one if any is left. */
  function ClaimNext(files: seq<string>, claimed: seq<string>): seq<string>
  {
    match FirstUnclaimed(files, claimed)
    case None => claimed
    case Some(image) => claimed + [image]
  }

  lemma ClaimedStep(matches: seq<Match>, files: seq<string>, slug: string)
    requires matches != []
    ensures Claimed(Assign(matches, files, slug)) == ClaimNext(files, Claimed(Assign(matches[..|matches| - 1], files, slug)))
  {
    var prev := Assign(matches[..|matches| - 1], files, slug);
    var m := matches[|matches| - 1];
    match FirstUnclaimed(files, Claimed(prev))
    case None =>
    case Some(image) =>
      assert Claimed(prev + [Replacement(m.alt, m.url, image, RelativePath(slug, image))]) == Claimed(prev) + [image];
  }

  /** `![alt](url)` */
  function ImageRef(alt: string, url: string): string
  {
    "![" + alt + "](" + url + ")"
  }

  /** The replacements applied in order, each rewriting every occurrence of the old reference. */
  function ApplyReplacements(content: string, reps: seq<Replacement>): string
    decreases reps
  {
    if reps == [] then content
    else
      var rep := reps[0];
      ApplyReplacements(ReplaceAll(content, ImageRef(rep.alt, rep.oldUrl), ImageRef(rep.alt, rep.newPath)), reps[1..])
  }

  /** How a run ends: before any write, or with the content written back and the count reported. */
  datatype Outcome =
    | NoMatches
    | MissingImagesDir
    | Fixed(content: string, count: nat)

  /**
    `fix_markdown_images`, given the file's content, the regex matches in it,
    whether `images/<slug>` exists next to the file, and that directory's file
    names in listing order.
   */
  function FixMarkdownImages(content: string, matches: seq<Match>, dirExists: bool, listing: seq<string>, slug: string): (r: Outcome)
    ensures r.NoMatches? <==> matches == []
    ensures r.MissingImagesDir? <==> matches != [] && !dirExists
    ensures r.Fixed? ==> r.count <= |matches|
  {
    if matches == [] then NoMatches
    else if !dirExists then MissingImagesDir
    else
      var reps := Assign(matches, ImageFiles(listing), slug);
      Fixed(ApplyReplacements(content, reps), |reps|)
  }

  /** The count reported is the smaller of the number of matches and the number of `image_*.png` files. */
  lemma FixedCount(content: string, matches: seq<Match>, listing: seq<string>, slug: string)
    requires matches != [] && Distinct(listing)
    ensures var files := ImageFiles(listing);
      FixMarkdownImages(content, matches, true, listing, slug).count == (if |matches| < |files| then |matches| else |files|)
  {
    ImageFilesDistinct(listing);
    AssignInOrder(matches, ImageFiles(listing), slug);
  }

  /** Without any `image_*.png` file, the content is written back unchanged and nothing is counted. */
  lemma NoFilesUnchanged(content: string, matches: seq<Match>, listing: seq<string>, slug: string)
    requires matches != []
    requires forall i :: 0 <= i < |listing| ==> !IsImageFile(listing[i])
    ensures FixMarkdownImages(content, matches, true, listing, slug) == Fixed(content, 0)
  {
    assert ImageFiles(listing) == [];
    AssignInOrder(matches, [], slug);
  }

  /**
    A single proxy reference, with no `!` before it and no second copy after
    it, becomes a reference with the same alt text to the one image file,
    and the text around it is kept.
   */
  lemma FixSingleReference(before: string, m: Match, after: string, image: string, slug: string)
    requires '!' !in before && !Contains(after, ImageRef(m.alt, m.url))
    requires IsImageFile(image)
    ensures FixMarkdownImages(before + ImageRef(m.alt, m.url) + after, [m], true, [image], slug)
        == Fixed(before + ImageRef(m.alt, RelativePath(slug, image)) + after, 1)
  {
    var oldRef, newRef := ImageRef(m.alt, m.url), ImageRef(m.alt, RelativePath(slug, image));
    var rep := Replacement(m.alt, m.url, image, RelativePath(slug, image));
    assert ImageFiles([image]) == [image];
    SingleAssign(m, image, slug);
    ApplyOne(before + oldRef + after, rep);
    assert oldRef[0] == '!';
    NoMatchBefore(before, oldRef, after);
    ReplaceOnce(before, oldRef, after, newRef);
  }

  /** One match and one file: the match takes the file. */
  lemma SingleAssign(m: Match, image: string, slug: string)
    ensures Assign([m], [image], slug) == [Replacement(m.alt, m.url, image, RelativePath(slug, image))]
  {
    assert [m][..0] == [];
    assert FirstUnclaimed([image], []) == Some(image);
  }

  /** A single replacement rewrites every occurrence of its old reference. */
  lemma ApplyOne(content: string, rep: Replacement)
    ensures ApplyReplacements(content, [rep])
        == ReplaceAll(content, ImageRef(rep.alt, rep.oldUrl), ImageRef(rep.alt, rep.newPath))
  {
    assert [rep][1..] == [];
  }

  /**
    A reference that occurs twice is matched twice and takes two files, and
    both count, but only the first file ends up in the text: the first
    replacement rewrites both copies and the second finds nothing left.
   */
  lemma DuplicateConsumesFile(m: Match, mid: string, first: string, second: string, slug: string)
    requires IsImageFile(first) && IsImageFile(second) && first != second
    requires ')' !in m.url && '!' !in m.alt && '!' !in mid && '!' !in RelativePath(slug, first)
    requires |RelativePath(slug, first)| < |m.url|
    ensures var oldRef := ImageRef(m.alt, m.url);
      var newRef := ImageRef(m.alt, RelativePath(slug, first));
      FixMarkdownImages(oldRef + mid + oldRef, [m, m], true, [first, second], slug) == Fixed(newRef + mid + newRef, 2)
  {
    var files := [first, second];
    assert ImageFiles(files) == files;
    var reps := Assign([m, m], files, slug);
    TwoMatchesTwoFiles(m, first, second, slug);
    var old1, new1 := ImageRef(m.alt, m.url), ImageRef(m.alt, RelativePath(slug, first));
    ReplaceBothCopies(old1, mid, new1);
    OldRefGone(m.alt, m.url, RelativePath(slug, first), mid);
    ApplyBoth(old1 + mid + old1, reps, new1 + mid + new1);
  }

  /** Two matches of the same reference take the two files in order. */
  lemma TwoMatchesTwoFiles(m: Match, first: string, second: string, slug: string)
    requires first != second
    ensures var reps := Assign([m, m], [first, second], slug);
      reps == [Replacement(m.alt, m.url, first, RelativePath(slug, first)), Replacement(m.alt, m.url, second, RelativePath(slug, second))]
  {
    var files := [first, second];
    AssignInOrder([m, m], files, slug);
    var reps := Assign([m, m], files, slug);
    assert reps[0] == Replacement(m.alt, m.url, first, RelativePath(slug, first));
    assert reps[1] == Replacement(m.alt, m.url, second, RelativePath(slug, second));
  }

  /** Two replacements of one reference: the first gives `text`, in which the second finds nothing. */
  lemma ApplyBoth(content: string, reps: seq<Replacement>, text: string)
    requires |reps| == 2 && reps[0].alt == reps[1].alt && reps[0].oldUrl == reps[1].oldUrl
    requires ReplaceAll(content, ImageRef(reps[0].alt, reps[0].oldUrl), ImageRef(reps[0].alt, reps[0].newPath)) == text
    requires !Contains(text, ImageRef(reps[1].alt, reps[1].oldUrl))
    ensures ApplyReplacements(content, reps) == text
  {
    var pat := ImageRef(reps[1].alt, reps[1].oldUrl);
    assert |pat| == 5 + |reps[1].alt| + |reps[1].oldUrl|;
    ReplaceAllAbsent(text, pat, ImageRef(reps[1].alt, reps[1].newPath));
    var rest := reps[1..];
    assert rest[0] == reps[1] && rest[1..] == [];
    assert ApplyReplacements(content, reps) == ApplyReplacements(text, rest);
    assert ApplyReplacements(text, rest) == ApplyReplacements(text, []);
  }

  /** Both copies of a pattern, with no character it starts with between them, are replaced. */
  lemma ReplaceBothCopies(pat: string, mid: string, rep: string)
    requires pat != "" && pat[0] !in mid
    ensures ReplaceAll(pat + mid + pat, pat, rep) == rep + mid + rep
  {
    var tail := mid + pat;
    ConcatAssoc(pat, mid, pat);
    ReplaceAllAt(pat, tail, rep);
    ReplaceLast(mid, pat, rep);
    ConcatAssoc(rep, mid, rep);
  }

  /** The last copy of a pattern, with no character it starts with before it, is replaced. */
  lemma ReplaceLast(mid: string, pat: string, rep: string)
    requires pat != "" && pat[0] !in mid
    ensures ReplaceAll(mid + pat, pat, rep) == mid + rep
  {
    AppendEmpty(mid + pat);
    AppendEmpty(mid + rep);
    assert !Contains("", pat);
    NoMatchBefore(mid, pat, "");
    ReplaceOnce(mid, pat, "", rep);
  }

  /**
    The old reference does not occur in the rewritten text: a `!` starts only
    the two new references, the first is closed by `)` where the old one still
    holds its URL, and the second is too short.
   */
  lemma OldRefGone(alt: string, url: string, path: string, mid: string)
    requires ')' !in url && '!' !in alt && '!' !in path && '!' !in mid
    requires |path| < |url|
    ensures !Contains(ImageRef(alt, path) + mid + ImageRef(alt, path), ImageRef(alt, url))
  {
    var o, n := ImageRef(alt, url), ImageRef(alt, path);
    var t := n + mid + n;
    RefTail(alt, path);
    RefCloses(alt, url, path);
    forall p | 0 <= p <= |t| - |o| ensures !StartsWith(t[p..], o) {
      if p == 0 {
        assert t[|n| - 1] == n[|n| - 1];
        assert t[p..][|n| - 1] != o[|n| - 1];
      } else if p < |n| {
        assert t[p] == n[1..][p - 1];
        assert t[p..][0] != o[0];
      } else {
        assert p < |n| + |mid|;
        assert t[p] == mid[p - |n|];
        assert t[p..][0] != o[0];
      }
    }
  }

  /** Only the first character of a reference is `!` when its alt text and target hold none. */
  lemma RefTail(alt: string, target: string)
    requires '!' !in alt && '!' !in target
    ensures ImageRef(alt, target)[0] == '!' && '!' !in ImageRef(alt, target)[1..]
  {
    assert ImageRef(alt, target)[1..] == "[" + alt + "](" + target + ")";
  }

  /** A reference to a shorter target ends with `)` where one to the longer URL still holds a URL character. */
  lemma RefCloses(alt: string, url: string, path: string)
    requires ')' !in url && |path| < |url|
    ensures |ImageRef(alt, path)| < |ImageRef(alt, url)|
    ensures ImageRef(alt, path)[|ImageRef(alt, path)| - 1] == ')'
    ensures ImageRef(alt, url)[|ImageRef(alt, path)| - 1] != ')'
  {
    var k := |ImageRef(alt, path)| - 1;
    assert k == 4 + |alt| + |path|;
    var head := "![" + alt + "](";
    assert ImageRef(alt, url) == head + url + ")";
    assert (head + url + ")")[k] == url[|path|];
    assert url[|path|] in url;
  }
}

=== FILE: retrieval.dfy ===
/**
  `retrieve(url)`: the page's title becomes the slug, its images are
  downloaded and mapped, the converted markdown has its image references
  rewritten, and the front matter is put ahead of it in `<slug>.md`.
 */
module Retrieval {
  import opened Wrappers
  import opened Text
  import opened Slug
  import opened Oracles
  import opened Dicts
  import opened Images
  import opened Rewriter
  import opened Frontmatter

  /** What `fetch_content` returns: the HTML, the title, and the `src` attribute of each `img` element in document order. */
  datatype Page = Page(html: string, title: string, srcs: seq<Option<string>>)

  /** The file `retrieve` saves, and what it is built from. */
  datatype Saved = Saved(filename: string, content: string, slug: string, images: Dict, markdown: string)

  const MarkdownSuffix: string := ".md"

  /**
    `retrieve(url)` given the outcome of fetching the page, the date, and the
    outcome of writing `<slug>.md` (`save_markdown` raises when the file
    cannot be opened, as when `blogs/` does not exist: only an image download
    creates it, so a page with no usable `src` on a fresh base directory
    fails here); a failed fetch raises before anything is downloaded or
    written.
   */
  function Retrieve(env: Env, url: string, fetched: Result<Page, string>, today: string, writeError: Option<string>): (r: Result<Saved, string>)
    requires fetched.Success? ==> IsAscii(fetched.value.title)
    ensures r.Failure? <==> fetched.Failure? || writeError.Some?
    ensures fetched.Failure? ==> r == Failure(fetched.error)
    ensures r.Success? ==> IsSlug(r.value.slug) && r.value.filename == r.value.slug + MarkdownSuffix
    ensures r.Success? ==> r.value.slug == Slugify(fetched.value.title)
    ensures r.Success? ==> r.value.images == ProcessImages(env, url, r.value.slug, fetched.value.srcs)
    ensures r.Success? ==> r.value.markdown == Rewrite(env.html2text(fetched.value.html), r.value.images)
    ensures r.Success? ==>
      r.value.content == Header(fetched.value.title, url, today, r.value.markdown) + r.value.markdown
  {
    match fetched
    case Failure(e) => Failure(e)
    case Success(page) =>
      var slug := Slugify(page.title);
      var images := ProcessImages(env, url, slug, page.srcs);
      var markdown := Rewrite(env.html2text(page.html), images);
      var frontmatter := Header(page.title, url, today, markdown);
      match writeError
      case Some(e) => Failure(e)
      case None => Success(Saved(slug + MarkdownSuffix, frontmatter + markdown, slug, images, markdown))
  }

  /**
    The directory named in the success message, the slug of the file name
    without `.md`, is the directory the images were saved in.
   */
  lemma ImagesDirMessage(env: Env, url: string, fetched: Result<Page, string>, today: string, writeError: Option<string>)
    requires fetched.Success? && IsAscii(fetched.value.title) && writeError.None?
    ensures var saved := Retrieve(env, url, fetched, today, writeError).value;
      var stem := saved.filename[..|saved.filename| - |MarkdownSuffix|];
      IsAscii(stem) && Slugify(stem) == saved.slug
  {
    var saved := Retrieve(env, url, fetched, today, writeError).value;
    assert saved.filename[..|saved.filename| - |MarkdownSuffix|] == saved.slug;
    SlugIsAscii(saved.slug);
    SlugifyIdempotent(fetched.value.title);
  }

  /**
    The saved file is the front matter, whose description is taken from the
    rewritten markdown, followed by the rewritten markdown unchanged; so it
    opens with the `---` line.
   */
  lemma SavedLayout(env: Env, url: string, fetched: Result<Page, string>, today: string, writeError: Option<string>)
    requires fetched.Success? && IsAscii(fetched.value.title) && writeError.None?
    ensures var saved := Retrieve(env, url, fetched, today, writeError).value;
      var header := Header(fetched.value.title, url, today, saved.markdown);
      && StartsWith(saved.content, "---\n")
      && StartsWith(saved.content, header)
      && saved.content[|header|..] == saved.markdown
  {
    var saved := Retrieve(env, url, fetched, today, writeError).value;
    var header := Header(fetched.value.title, url, today, saved.markdown);
    HeaderOpens(fetched.value.title, url, today, Description(saved.markdown));
    ConcatLayout(header, saved.markdown, "---\n");
  }

  lemma ConcatLayout(a: string, b: string, prefix: string)
    requires StartsWith(a, prefix)
    ensures StartsWith(a + b, prefix) && StartsWith(a + b, a) && (a + b)[|a|..] == b
  {
    assert (a + b)[..|a|] == a;
    assert (a + b)[..|prefix|] == a[..|prefix|];
  }

  /** A page without images keeps the converted markdown as it is and saves an empty map. */
  lemma NoImagesNoRewrite(env: Env, url: string, fetched: Result<Page, string>, today: string, writeError: Option<string>)
    requires fetched.Success? && IsAscii(fetched.value.title) && writeError.None?
    requires fetched.value.srcs == []
    ensures var saved := Retrieve(env, url, fetched, today, writeError).value;
      saved.images == [] && saved.markdown == env.html2text(fetched.value.html)
  {
  }
}

=== FILE: rewriter.dfy ===
/**
  Rewriting image references in the converted markdown (`convert_to_markdown`):
  the keys of the image map are taken longest first, in a stable order, and
  each is replaced everywhere in the text by its local path.
 */
module Rewriter {
  import opened Text
  import opened Dicts

  /** Key lengths never increase along `es`. */
  predicate LongestFirst(es: seq<Entry>) {
    forall i, j :: 0 <= i < j < |es| ==> |es[i].key| >= |es[j].key|
  }

  /**
    Puts `e` into an order that is longest first, ahead of every entry whose
    key is not longer than its own, so that it stays ahead of the equally long
    entries that came after it.
   */
  function InsertByLength(e: Entry, sorted: seq<Entry>): (r: seq<Entry>)
    ensures |r| == |sorted| + 1
    ensures multiset(r) == multiset(sorted) + multiset{e}
    ensures forall i :: 0 <= i < |r| ==> r[i] == e || r[i] in sorted
  {
    if sorted == [] || |sorted[0].key| <= |e.key| then [e] + sorted
    else
      var rest := InsertByLength(e, sorted[1..]);
      assert sorted == [sorted[0]] + sorted[1..];
      [sorted[0]] + rest
  }

  /** Inserting into a longest-first order keeps it longest first. */
  lemma {:induction false} InsertKeepsOrder(e: Entry, sorted: seq<Entry>)
    requires LongestFirst(sorted)
    ensures LongestFirst(InsertByLength(e, sorted))
  {
    if sorted != [] && |sorted[0].key| > |e.key| {
      var rest := InsertByLength(e, sorted[1..]);
      InsertKeepsOrder(e, sorted[1..]);
      forall j | 0 <= j < |rest| ensures |rest[j].key| <= |sorted[0].key| {
        if rest[j] != e {
          var k :| 0 <= k < |sorted[1..]| && sorted[1..][k] == rest[j];
          assert sorted[k + 1] == rest[j];
        }
      }
    }
  }

  /** `sorted(entries, key=len(key), reverse=True)` */
  function SortByLength(es: seq<Entry>): (r: seq<Entry>)
    ensures |r| == |es|
    ensures multiset(r) == multiset(es)
    ensures LongestFirst(r)
  {
    if es == [] then []
    else
      assert es == [es[0]] + es[1..];
      InsertKeepsOrder(es[0], SortByLength(es[1..]));
      InsertByLength(es[0], SortByLength(es[1..]))
  }

  /** The entries of `es` whose key has length `n`, in their order in `es`. */
  function WithLength(es: seq<Entry>, n: nat): (r: seq<Entry>)
    ensures forall i :: 0 <= i < |r| ==> |r[i].key| == n
  {
    if es == [] then []
    else (if |es[0].key| == n then [es[0]] else []) + WithLength(es[1..], n)
  }

  lemma {:induction false} WithLengthInsert(e: Entry, sorted: seq<Entry>, n: nat)
    ensures WithLength(InsertByLength(e, sorted), n)
        == (if |e.key| == n then [e] else []) + WithLength(sorted, n)
  {
    if sorted == [] || |sorted[0].key| <= |e.key| {
      assert ([e] + sorted)[1..] == sorted;
    } else {
      WithLengthInsert(e, sorted[1..], n);
      assert ([sorted[0]] + InsertByLength(e, sorted[1..]))[1..] == InsertByLength(e, sorted[1..]);
      if |e.key| == n {
        assert |sorted[0].key| != n;
      }
    }
  }

  /** The sort is stable: entries with keys of the same length keep their relative order. */
  lemma {:induction false} SortStable(es: seq<Entry>, n: nat)
    ensures WithLength(SortByLength(es), n) == WithLength(es, n)
  {
    if es != [] {
      SortStable(es[1..], n);
      WithLengthInsert(es[0], SortByLength(es[1..]), n);
    }
  }

  /** A string that contains another, different one is strictly longer. */
  lemma ContainsLonger(s: string, sub: string)
    requires Contains(s, sub) && s != sub
    ensures |sub| < |s|
  {
    var i :| 0 <= i <= |s| - |sub| && StartsWith(s[i..], sub);
  }

  /**
    When one key is part of another, the longer key is replaced first, so its
    occurrences are not broken up by replacing the shorter one inside them.
   */
  lemma {:induction false} LongerKeyFirst(es: seq<Entry>, i: nat, j: nat)
    requires i < |SortByLength(es)| && j < |SortByLength(es)|
    requires var r := SortByLength(es); Contains(r[i].key, r[j].key) && r[i].key != r[j].key
    ensures i < j
  {
    var r := SortByLength(es);
    ContainsLonger(r[i].key, r[j].key);
  }

  /** Each key, in order, replaced everywhere by its value in the text produced so far. */
  function ApplyInOrder(text: string, es: seq<Entry>): string
    decreases es
  {
    if es == [] then text else ApplyInOrder(ReplaceAll(text, es[0].key, es[0].value), es[1..])
  }

  /** `convert_to_markdown` after the HTML has been converted: the map's keys replaced longest first. */
  function Rewrite(markdown: string, images: Dict): string
  {
    ApplyInOrder(markdown, SortByLength(images))
  }

  /** Keys that are not empty and do not occur leave the text unchanged. */
  lemma {:induction false} ApplyAbsent(text: string, es: seq<Entry>)
    requires forall i :: 0 <= i < |es| ==> es[i].key != "" && !Contains(text, es[i].key)
    ensures ApplyInOrder(text, es) == text
  {
    if es != [] {
      ReplaceAllAbsent(text, es[0].key, es[0].value);
      ApplyAbsent(text, es[1..]);
    }
  }

  /** A text that mentions none of the (non-empty) image URLs comes back unchanged. */
  lemma {:induction false} RewriteUnchanged(markdown: string, images: Dict)
    requires forall i :: 0 <= i < |images| ==> images[i].key != "" && !Contains(markdown, images[i].key)
    ensures Rewrite(markdown, images) == markdown
  {
    var sorted := SortByLength(images);
    forall i | 0 <= i < |sorted|
      ensures sorted[i].key != "" && !Contains(markdown, sorted[i].key)
    {
      assert sorted[i] in multiset(images);
    }
    ApplyAbsent(markdown, sorted);
  }

  /** Applying `a` and then `b` is applying them one list after the other. */
  lemma {:induction false} ApplyConcat(text: string, a: seq<Entry>, b: seq<Entry>)
    ensures ApplyInOrder(text, a + b) == ApplyInOrder(ApplyInOrder(text, a), b)
    decreases a
  {
    if a == [] {
      assert a + b == b;
    } else {
      assert (a + b)[0] == a[0] && (a + b)[1..] == a[1..] + b;
      ApplyConcat(ReplaceAll(text, a[0].key, a[0].value), a[1..], b);
    }
  }

  /** Inserting an entry whose key is new keeps the keys unique. */
  lemma {:induction false} InsertUnique(e: Entry, sorted: seq<Entry>)
    requires UniqueKeys(sorted)
    requires forall i :: 0 <= i < |sorted| ==> sorted[i].key != e.key
    ensures UniqueKeys(InsertByLength(e, sorted))
  {
    if sorted != [] && |sorted[0].key| > |e.key| {
      var rest := InsertByLength(e, sorted[1..]);
      InsertUnique(e, sorted[1..]);
      forall j | 0 <= j < |rest| ensures rest[j].key != sorted[0].key {
        if rest[j] != e {
          var k :| 0 <= k < |sorted[1..]| && sorted[1..][k] == rest[j];
          assert sorted[k + 1] == rest[j];
        }
      }
    }
  }

  /** Sorting a dict's entries keeps each key once. */
  lemma {:induction false} SortUnique(es: seq<Entry>)
    requires UniqueKeys(es)
    ensures UniqueKeys(SortByLength(es))
  {
    if es != [] {
      var rest := SortByLength(es[1..]);
      SortUnique(es[1..]);
      forall i | 0 <= i < |rest| ensures rest[i].key != es[0].key {
        assert rest[i] in multiset(es[1..]);
        var k :| 0 <= k < |es[1..]| && es[1..][k] == rest[i];
        assert es[k + 1] == rest[i];
      }
      InsertUnique(es[0], rest);
    }
  }

  /** No key of `es` is empty or occurs in `text`. */
  predicate AbsentFrom(text: string, es: seq<Entry>) {
    forall i :: 0 <= i < |es| ==> es[i].key != "" && !Contains(text, es[i].key)
  }

  /**
    Substring safety: an occurrence of a key is replaced whole by its path,
    whatever shorter keys occur inside it, provided no other key at least as
    long occurs in the text and no other key occurs once it is replaced.
   */
  lemma WholeKeyReplaced(images: Dict, e: Entry, pre: string, post: string)
    requires e in images && e.key != ""
    requires e.key[0] !in pre && !Contains(post, e.key)
    requires forall i :: 0 <= i < |images| && images[i].key != e.key && |images[i].key| >= |e.key| ==> !Contains(pre + e.key + post, images[i].key)
    requires forall i :: 0 <= i < |images| && images[i].key != e.key ==> !Contains(pre + e.value + post, images[i].key)
    ensures Rewrite(pre + e.key + post, images) == pre + e.value + post
  {
    var text, done := pre + e.key + post, pre + e.value + post;
    var sorted := SortByLength(images);
    SortUnique(images);
    assert e in multiset(sorted);
    var k :| 0 <= k < |sorted| && sorted[k] == e;
    LongerAbsent(images, sorted, k, text);
    ApplyFrom(text, sorted, k);
    NoMatchBefore(pre, e.key, post);
    ReplaceOnce(pre, e.key, post, e.value);
    OtherAbsent(images, sorted, k, done);
    ApplyAbsent(done, sorted[k + 1..]);
  }

  /** When no key ahead of the `k`-th occurs, applying the entries starts in effect at the `k`-th. */
  lemma ApplyFrom(text: string, es: seq<Entry>, k: nat)
    requires k < |es| && AbsentFrom(text, es[..k])
    ensures ApplyInOrder(text, es) == ApplyInOrder(ReplaceAll(text, es[k].key, es[k].value), es[k + 1..])
  {
    var before, after := es[..k], es[k + 1..];
    ApplyAbsent(text, before);
    assert es == before + ([es[k]] + after);
    ApplyConcat(text, before, [es[k]] + after);
    ApplyHead(text, es[k], after);
  }

  lemma ApplyHead(text: string, e: Entry, rest: seq<Entry>)
    ensures ApplyInOrder(text, [e] + rest) == ApplyInOrder(ReplaceAll(text, e.key, e.value), rest)
  {
    assert ([e] + rest)[0] == e && ([e] + rest)[1..] == rest;
  }

  /** The entries sorted ahead of the `k`-th have keys at least as long, and other keys, so they are absent. */
  lemma LongerAbsent(images: seq<Entry>, sorted: seq<Entry>, k: nat, text: string)
    requires k < |sorted| && multiset(sorted) == multiset(images)
    requires UniqueKeys(sorted) && LongestFirst(sorted)
    requires forall i :: 0 <= i < |images| && images[i].key != sorted[k].key && |images[i].key| >= |sorted[k].key| ==> !Contains(text, images[i].key)
    ensures AbsentFrom(text, sorted[..k])
  {
    forall i | 0 <= i < k ensures sorted[i].key != "" && !Contains(text, sorted[i].key) {
      assert sorted[i] in multiset(images);
      var j :| 0 <= j < |images| && images[j] == sorted[i];
      assert sorted[i].key != sorted[k].key;
    }
    assert forall i :: 0 <= i < k ==> sorted[..k][i] == sorted[i];
  }

  /** The entries sorted after the `k`-th have other keys, so they are absent. */
  lemma OtherAbsent(images: seq<Entry>, sorted: seq<Entry>, k: nat, text: string)
    requires k < |sorted| && multiset(sorted) == multiset(images) && UniqueKeys(sorted)
    requires forall i :: 0 <= i < |images| && images[i].key != sorted[k].key ==> !Contains(text, images[i].key)
    ensures AbsentFrom(text, sorted[k + 1..])
  {
    var after := sorted[k + 1..];
    forall i | 0 <= i < |after| ensures after[i].key != "" && !Contains(text, after[i].key) {
      var x := sorted[k + 1 + i];
      assert after[i] == x;
      assert x in multiset(images);
      var j :| 0 <= j < |images| && images[j] == x;
      assert x.key != sorted[k].key;
      ContainsEmpty(text);
    }
  }

  /**
    Why the order matters: with a map holding `x/a` and the longer `x/a?v`,
    an occurrence of `x/a?v` becomes its own path, while replacing in
    insertion order would turn it into the other path followed by `?v`.
   */
  lemma LongestFirstExample()
    ensures var images: Dict := [Entry("x/a", "P"), Entry("x/a?v", "Q")];
      && Rewrite("(x/a?v)", images) == "(Q)"
      && ApplyInOrder("(x/a?v)", images) == "(P?v)"
  {
    var images: Dict := [Entry("x/a", "P"), Entry("x/a?v", "Q")];
    SortExample();
    ReplaceLongKey();
    ReplaceShortKey();
    NoKeyLeft();
    ApplyTwo("(x/a?v)", Entry("x/a?v", "Q"), Entry("x/a", "P"));
    ApplyTwo("(x/a?v)", Entry("x/a", "P"), Entry("x/a?v", "Q"));
  }

  /** Two entries are applied one after the other. */
  lemma ApplyTwo(text: string, first: Entry, second: Entry)
    ensures ApplyInOrder(text, [first, second])
         == ReplaceAll(ReplaceAll(text, first.key, first.value), second.key, second.value)
  {
    var once := ReplaceAll(text, first.key, first.value);
    assert [first, second][1..] == [second];
    assert ApplyInOrder(text, [first, second]) == ApplyInOrder(once, [second]);
    assert [second][1..] == [];
    assert ApplyInOrder(once, [second]) == ApplyInOrder(ReplaceAll(once, second.key, second.value), []);
  }

  lemma SortExample()
    ensures SortByLength([Entry("x/a", "P"), Entry("x/a?v", "Q")]) == [Entry("x/a?v", "Q"), Entry("x/a", "P")]
  {
    var es := [Entry("x/a", "P"), Entry("x/a?v", "Q")];
    assert es[1..] == [Entry("x/a?v", "Q")];
    assert SortByLength(es[1..]) == [Entry("x/a?v", "Q")];
  }

  lemma NoKeyLeft()
    ensures ReplaceAll("(Q)", "x/a", "P") == "(Q)"
    ensures ReplaceAll("(P?v)", "x/a?v", "Q") == "(P?v)"
  {
    assert 'x' !in "(Q)";
    assert 'x' !in "(P?v)";
    NoStartContains("(Q)", "x/a");
    NoStartContains("(P?v)", "x/a?v");
    ReplaceAllAbsent("(Q)", "x/a", "P");
    ReplaceAllAbsent("(P?v)", "x/a?v", "Q");
  }

  /** A text without the first character of a non-empty pattern does not contain it. */
  lemma NoStartContains(s: string, pat: string)
    requires pat != "" && pat[0] !in s
    ensures !Contains(s, pat)
  {
  }

  lemma ReplaceLongKey()
    ensures ReplaceAll("(x/a?v)", "x/a?v", "Q") == "(Q)"
  {
    assert !StartsWith("(x/a?v)", "x/a?v");
    assert "(x/a?v)"[1..] == "x/a?v)";
    assert StartsWith("x/a?v)", "x/a?v");
    assert "x/a?v)"[5..] == ")";
    assert !StartsWith(")", "x/a?v");
    assert ")"[1..] == "";
  }

  lemma ReplaceShortKey()
    ensures ReplaceAll("(x/a?v)", "x/a", "P") == "(P?v)"
  {
    assert !StartsWith("(x/a?v)", "x/a");
    assert "(x/a?v)"[1..] == "x/a?v)";
    assert StartsWith("x/a?v)", "x/a");
    assert "x/a?v)"[3..] == "?v)";
    ReplaceAllAbsent("?v)", "x/a", "P");
  }
}

=== FILE: slug.dfy ===
/**
  The slug derived from a page title (`WebDocsRetriever.slugify`): lower-case
  the title, delete every character that is not a word character, whitespace
  or `-`, turn each run of `-` and whitespace into one `-`, and strip `-` from
  both ends. The model covers ASCII titles, where a word character is an ASCII
  letter, digit or `_`.
 */
module Slug {
  import opened Text

  predicate IsWordChar(c: char) { IsAsciiAlnum(c) || c == '_' }

  /** The characters `[-\s]` whose runs collapse to one `-`. */
  predicate IsSeparator(c: char) { c == '-' || IsSpace(c) }

  /** The characters `[\w\s-]` that survive the deletion step. */
  predicate IsKept(c: char) { IsWordChar(c) || IsSeparator(c) }

  predicate IsDash(c: char) { c == '-' }

  /** A word: no character of `s` is a separator. */
  predicate NoSeparator(s: string) { forall i :: 0 <= i < |s| ==> !IsSeparator(s[i]) }

  /** A run: every character of `s` is a separator. */
  predicate AllSeparators(s: string) { forall i :: 0 <= i < |s| ==> IsSeparator(s[i]) }

  predicate IsSlugChar(c: char) { IsAsciiLower(c) || IsAsciiDigit(c) || c == '_' || c == '-' }

  predicate IsSlugCharOrSpace(c: char) { IsSlugChar(c) || IsSpace(c) }

  predicate NotUpper(c: char) { !IsAsciiUpper(c) }

  /** No two consecutive dashes. */
  predicate NoDoubleDash(s: string) {
    forall i :: 0 <= i < |s| - 1 ==> !(s[i] == '-' && s[i + 1] == '-')
  }

  /** The shape of every slug: lower-case word characters and single dashes, no dash at either end. */
  predicate IsSlug(s: string) {
    && (forall i :: 0 <= i < |s| ==> IsSlugChar(s[i]))
    && (s == "" || (s[0] != '-' && s[|s| - 1] != '-'))
    && NoDoubleDash(s)
  }

  /** `str.lower()` on one ASCII character. */
  function LowerChar(c: char): (r: char)
    ensures !IsAsciiUpper(r)
    ensures !IsAsciiUpper(c) ==> r == c
    ensures IsAsciiUpper(c) ==> IsAsciiLower(r) && r as int - c as int == 'a' as int - 'A' as int
  {
    if IsAsciiUpper(c) then (c as int + 32) as char else c
  }

  function Lower(s: string): (r: string)
    ensures |r| == |s|
    ensures forall i :: 0 <= i < |s| ==> r[i] == LowerChar(s[i])
  {
    seq(|s|, i requires 0 <= i < |s| => LowerChar(s[i]))
  }

  /** `re.sub(r'[-\s]+', '-', s)`: each maximal run of separators becomes a single `-`. */
  function CollapseSeparators(s: string): (r: string)
    ensures NoDoubleDash(r)
    ensures s != "" && !IsSeparator(s[0]) ==> r != "" && r[0] == s[0]
    decreases |s|
  {
    if s == "" then ""
    else if IsSeparator(s[0]) then
      var tail := CollapseSeparators(TrimStart(s[1..], IsSeparator));
      ConsNoDoubleDash('-', tail);
      "-" + tail
    else
      var tail := CollapseSeparators(s[1..]);
      ConsNoDoubleDash(s[0], tail);
      [s[0]] + tail
  }

  /**
    Where the dashes go: a word free of separators is kept, and the run of
    separators after it becomes exactly one `-`.
   */
  lemma CollapseRun(word: string, run: string, rest: string)
    requires NoSeparator(word) && run != "" && AllSeparators(run)
    requires rest == "" || !IsSeparator(rest[0])
    ensures CollapseSeparators(word + run + rest) == word + "-" + CollapseSeparators(rest)
  {
    ConcatAssoc(word, run, rest);
    CollapseWordPrefix(word, run + rest);
    CollapseRunStart(run, rest);
    ConcatAssoc(word, "-", CollapseSeparators(rest));
  }

  /** A word free of separators at the front is copied through. */
  lemma {:induction false} CollapseWordPrefix(word: string, t: string)
    requires NoSeparator(word)
    ensures CollapseSeparators(word + t) == word + CollapseSeparators(t)
  {
    if word != "" {
      HeadConcat(word, t);
      CollapseKeep(word[0], word[1..] + t);
      CollapseWordPrefix(word[1..], t);
      HeadConcat(word, CollapseSeparators(t));
    } else {
      assert word + t == t;
      assert word + CollapseSeparators(t) == CollapseSeparators(t);
    }
  }

  /** A leading run of separators becomes one `-`. */
  lemma CollapseRunStart(run: string, rest: string)
    requires run != "" && AllSeparators(run)
    requires rest == "" || !IsSeparator(rest[0])
    ensures CollapseSeparators(run + rest) == "-" + CollapseSeparators(rest)
  {
    var s := run + rest;
    TrimStartRun(run, rest, IsSeparator);
    assert IsSeparator(s[0]);
    assert TrimStart(s[1..], IsSeparator) == TrimStart(s, IsSeparator);
  }

  /** A character other than a separator is kept. */
  lemma CollapseKeep(c: char, t: string)
    requires !IsSeparator(c)
    ensures CollapseSeparators([c] + t) == [c] + CollapseSeparators(t)
  {
    assert ([c] + t)[0] == c && ([c] + t)[1..] == t;
  }

  /** A string without separators is left as it is. */
  lemma {:induction false} CollapseWord(word: string)
    requires NoSeparator(word)
    ensures CollapseSeparators(word) == word
  {
    CollapseNoRuns(word);
  }

  /** A character put in front keeps dashes single unless it is a dash before a dash. */
  lemma ConsNoDoubleDash(c: char, t: string)
    requires NoDoubleDash(t)
    requires c == '-' ==> t == "" || t[0] != '-'
    ensures NoDoubleDash([c] + t)
  {
    var r := [c] + t;
    forall i | 0 <= i < |r| - 1 ensures !(r[i] == '-' && r[i + 1] == '-') {
      if i > 0 {
        assert r[i] == t[i - 1] && r[i + 1] == t[i];
      }
    }
  }

  function Slugify(text: string): (slug: string)
    requires IsAscii(text)
    ensures IsSlug(slug)
  {
    SlugShape(text);
    Strip(CollapseSeparators(Filter(Lower(text), IsKept)), IsDash)
  }

  /** After collapsing, only slug characters remain when only slug characters and whitespace went in. */
  lemma {:induction false} CollapseChars(s: string)
    requires forall i :: 0 <= i < |s| ==> IsSlugCharOrSpace(s[i])
    ensures forall i :: 0 <= i < |CollapseSeparators(s)| ==> IsSlugChar(CollapseSeparators(s)[i])
    decreases |s|
  {
    if s != "" {
      if IsSeparator(s[0]) {
        var rest := TrimStart(s[1..], IsSeparator);
        assert forall i :: 0 <= i < |rest| ==> rest[i] == s[1..][|s[1..]| - |rest| + i];
        CollapseChars(rest);
      } else {
        CollapseChars(s[1..]);
      }
    }
  }

  lemma {:induction false} SlugShape(text: string)
    requires IsAscii(text)
    ensures IsSlug(Strip(CollapseSeparators(Filter(Lower(text), IsKept)), IsDash))
  {
    var kept := Filter(Lower(text), IsKept);
    KeptChars(text);
    CollapseChars(kept);
    StripSlug(CollapseSeparators(kept));
  }

  lemma KeptChars(text: string)
    ensures forall i :: 0 <= i < |Filter(Lower(text), IsKept)| ==> IsSlugCharOrSpace(Filter(Lower(text), IsKept)[i])
  {
    var lowered := Lower(text);
    assert forall i :: 0 <= i < |lowered| ==> NotUpper(lowered[i]);
    FilterPreserves(lowered, IsKept, NotUpper);
    var kept := Filter(lowered, IsKept);
    forall i | 0 <= i < |kept| ensures IsSlugCharOrSpace(kept[i]) {
      assert IsKept(kept[i]) && NotUpper(kept[i]);
    }
  }

  /** Stripping the end dashes from a string of slug characters without double dashes leaves a slug. */
  lemma StripSlug(s: string)
    requires forall i :: 0 <= i < |s| ==> IsSlugChar(s[i])
    requires NoDoubleDash(s)
    ensures IsSlug(Strip(s, IsDash))
  {
    var r := Strip(s, IsDash);
    var lo, hi :| StrippedSlice(s, IsDash, lo, hi) && r == s[lo..hi];
    SliceChars(s, lo, hi);
  }

  /** A slice of a string of slug characters without double dashes is one too. */
  lemma SliceChars(s: string, lo: int, hi: int)
    requires 0 <= lo <= hi <= |s|
    requires forall i :: 0 <= i < |s| ==> IsSlugChar(s[i])
    requires NoDoubleDash(s)
    ensures forall i :: 0 <= i < hi - lo ==> IsSlugChar(s[lo..hi][i])
    ensures NoDoubleDash(s[lo..hi])
  {
    var r := s[lo..hi];
    forall i | 0 <= i < |r| - 1 ensures !(r[i] == '-' && r[i + 1] == '-') {
      assert r[i] == s[lo + i] && r[i + 1] == s[lo + i + 1];
    }
  }

  lemma {:induction false} CollapseNoRuns(s: string)
    requires forall i :: 0 <= i < |s| ==> !IsSpace(s[i])
    requires NoDoubleDash(s)
    ensures CollapseSeparators(s) == s
  {
    if s != "" {
      CollapseNoRuns(s[1..]);
      if IsSeparator(s[0]) {
        assert s[1..] == "" || !IsSeparator(s[1]);
        assert TrimStart(s[1..], IsSeparator) == s[1..];
      }
      assert s == [s[0]] + s[1..];
    }
  }

  lemma SlugIsAscii(s: string)
    requires IsSlug(s)
    ensures IsAscii(s)
  {
  }

  lemma LowerSlug(s: string)
    requires IsSlug(s)
    ensures Lower(s) == s
  {
    assert forall i :: 0 <= i < |s| ==> IsSlugChar(s[i]) && !IsAsciiUpper(s[i]);
  }

  /** A string already in slug shape is its own slug. */
  lemma {:induction false} SlugFixpoint(s: string)
    requires IsSlug(s)
    ensures IsAscii(s) && Slugify(s) == s
  {
    SlugIsAscii(s);
    LowerSlug(s);
    assert forall i :: 0 <= i < |s| ==> IsSlugChar(s[i]) && IsKept(s[i]) && !IsSpace(s[i]);
    FilterKeepsAll(s, IsKept);
    CollapseNoRuns(s);
    StripUnchanged(s, IsDash);
    calc {
      Slugify(s);
      Strip(CollapseSeparators(Filter(Lower(s), IsKept)), IsDash);
      Strip(CollapseSeparators(Filter(s, IsKept)), IsDash);
      Strip(CollapseSeparators(s), IsDash);
      Strip(s, IsDash);
      s;
    }
  }

  /** Slug derivation is idempotent. */
  lemma {:induction false} SlugifyIdempotent(text: string)
    requires IsAscii(text)
    ensures IsAscii(Slugify(text)) && Slugify(Slugify(text)) == Slugify(text)
  {
    SlugFixpoint(Slugify(text));
  }

  lemma {:induction false} CollapseKeepsWords(s: string)
    ensures Filter(CollapseSeparators(s), IsWordChar) == Filter(s, IsWordChar)
    decreases |s|
  {
    if s != "" {
      if IsSeparator(s[0]) {
        CollapseKeepsWords(TrimStart(s[1..], IsSeparator));
        SeparatorStep(s);
      } else {
        CollapseKeepsWords(s[1..]);
        FilterCons(s[0], CollapseSeparators(s[1..]), IsWordChar);
      }
    }
  }

  /** The step of `CollapseKeepsWords` for a leading separator, given the claim for what follows the run. */
  lemma SeparatorStep(s: string)
    requires s != "" && IsSeparator(s[0])
    requires Filter(CollapseSeparators(TrimStart(s[1..], IsSeparator)), IsWordChar) == Filter(TrimStart(s[1..], IsSeparator), IsWordChar)
    ensures Filter(CollapseSeparators(s), IsWordChar) == Filter(s, IsWordChar)
  {
    SeparatorKeepsWords(s);
    SeparatorsAreNotWords();
    FilterTrimStart(s[1..], IsSeparator, IsWordChar);
    FilterSkip(s, IsWordChar);
  }

  lemma SeparatorsAreNotWords()
    ensures forall c :: IsSeparator(c) ==> !IsWordChar(c)
  {
  }

  /** A leading separator run becomes one `-`, which is no word character. */
  lemma SeparatorKeepsWords(s: string)
    requires s != "" && IsSeparator(s[0])
    ensures Filter(CollapseSeparators(s), IsWordChar)
         == Filter(CollapseSeparators(TrimStart(s[1..], IsSeparator)), IsWordChar)
  {
    var collapsed := CollapseSeparators(TrimStart(s[1..], IsSeparator));
    var dashed := ['-'] + collapsed;
    assert CollapseSeparators(s) == dashed;
    assert dashed[1..] == collapsed;
    FilterSkip(dashed, IsWordChar);
  }

  /** The word characters of the slug are exactly those of the lower-cased title, in order. */
  lemma {:induction false} SlugifyKeepsWords(text: string)
    requires IsAscii(text)
    ensures Filter(Slugify(text), IsWordChar) == Filter(Lower(text), IsWordChar)
  {
    var kept := Filter(Lower(text), IsKept);
    FilterStrip(CollapseSeparators(kept), IsDash, IsWordChar);
    CollapseKeepsWords(kept);
    FilterFilter(Lower(text), IsKept, IsWordChar);
  }

  /** The title `Hello World` gives the slug `hello-world`. */
  lemma HelloWorldSlug()
    ensures IsAscii("Hello World") && Slugify("Hello World") == "hello-world"
  {
    LowerHelloWorld();
    KeptHelloWorld();
    CollapseHelloWorld();
    StripUnchanged("hello-world", IsDash);
  }

  lemma LowerHelloWorld()
    ensures IsAscii("Hello World") && Lower("Hello World") == "hello world"
  {
    var r := Lower("Hello World");
    assert r[0] == 'h';
  }

  lemma KeptHelloWorld()
    ensures Filter("hello world", IsKept) == "hello world"
  {
    FilterKeepsAll("hello world", IsKept);
  }

  lemma CollapseHelloWorld()
    ensures CollapseSeparators("hello world") == "hello-world"
  {
    var hello, world := "hello", "world";
    HelloWorldParts(hello, world);
    LowerWord(hello);
    LowerWord(world);
    CollapseRun(hello, " ", world);
    CollapseWord(world);
  }

  lemma HelloWorldParts(hello: string, world: string)
    requires hello == "hello" && world == "world"
    ensures "hello world" == hello + " " + world && hello + "-" + world == "hello-world"
  {
  }

  lemma LowerWord(w: string)
    requires forall i :: 0 <= i < |w| ==> IsAsciiLower(w[i])
    ensures NoSeparator(w)
  {
  }
}

=== FILE: text.dfy ===
/**
  Character classes and string operations with the semantics of Python's `str`
  methods (`isspace`, `in`, `startswith`, `replace`, `split`, `join`, `strip`)
  and of deleting a character class with `re.sub`.
 */
module Text {

  /** Python's `str.isspace()`; `\s` in a `str` pattern of `re` matches the same set. */
  predicate IsSpace(c: char) {
    var n := c as int;
    (9 <= n <= 13) || (28 <= n <= 32) || n == 0x85 || n == 0xA0 || n == 0x1680
    || (0x2000 <= n <= 0x200A) || n == 0x2028 || n == 0x2029 || n == 0x202F
    || n == 0x205F || n == 0x3000
  }

  predicate IsAsciiDigit(c: char) { '0' <= c <= '9' }
  predicate IsAsciiLower(c: char) { 'a' <= c <= 'z' }
  predicate IsAsciiUpper(c: char) { 'A' <= c <= 'Z' }
  predicate IsAsciiAlnum(c: char) { IsAsciiLower(c) || IsAsciiUpper(c) || IsAsciiDigit(c) }

  predicate IsAscii(s: string) {
    forall i :: 0 <= i < |s| ==> s[i] as int < 128
  }

  /** `s.startswith(prefix)` */
  predicate StartsWith(s: string, prefix: string) {
    |prefix| <= |s| && s[..|prefix|] == prefix
  }

  /** `sub in s` */
  predicate Contains(s: string, sub: string) {
    exists i | 0 <= i <= |s| - |sub| :: StartsWith(s[i..], sub)
  }

  /** Every string contains the empty string. */
  lemma ContainsEmpty(s: string)
    ensures Contains(s, "")
  {
    assert StartsWith(s[0..], "");
  }

  lemma ContainsExtend(a: string, b: string, sub: string)
    requires Contains(a, sub)
    ensures Contains(a + b, sub)
  {
    var i :| 0 <= i <= |a| - |sub| && StartsWith(a[i..], sub);
    assert (a + b)[i..][..|sub|] == a[i..][..|sub|];
  }

  lemma AppendEmpty(s: string)
    ensures s + "" == s
  {
  }

  lemma ConcatAssoc(a: string, b: string, c: string)
    ensures a + b + c == a + (b + c)
  {
  }

  /** A non-empty string before `u` is its first character before the rest and `u`. */
  lemma HeadConcat(s: string, u: string)
    requires s != ""
    ensures s + u == [s[0]] + (s[1..] + u)
  {
    assert s == [s[0]] + s[1..];
  }

  /** Position of the first `c` in `s`, or `|s|` when there is none (`str.find`, with `|s|` for -1). */
  function IndexOf(s: string, c: char): (r: nat)
    ensures r <= |s|
    ensures r < |s| ==> s[r] == c
    ensures forall i :: 0 <= i < r ==> s[i] != c
  {
    if s == "" then 0
    else if s[0] == c then 0
    else 1 + IndexOf(s[1..], c)
  }

  /** The characters of `s` that satisfy `keep`, in order (`re.sub` of a character class with ""). */
  function Filter(s: string, keep: char -> bool): (r: string)
    ensures |r| <= |s|
    ensures forall i :: 0 <= i < |r| ==> keep(r[i])
  {
    if s == "" then ""
    else (if keep(s[0]) then [s[0]] else "") + Filter(s[1..], keep)
  }

  /** `a` is `b` with some elements left out, the rest in their order (matched greedily). */
  predicate IsSubsequence<T(==)>(a: seq<T>, b: seq<T>)
    decreases |b|
  {
    if a == [] then true
    else if b == [] then false
    else if a[0] == b[0] then IsSubsequence(a[1..], b[1..])
    else IsSubsequence(a, b[1..])
  }

  /** Filtering only leaves characters out: it keeps the order of those it keeps. */
  lemma {:induction false} FilterSubsequence(s: string, keep: char -> bool)
    ensures IsSubsequence(Filter(s, keep), s)
  {
    if s != "" {
      var rest := Filter(s[1..], keep);
      FilterSubsequence(s[1..], keep);
      if keep(s[0]) {
        var r := [s[0]] + rest;
        assert Filter(s, keep) == r && r[0] == s[0] && r[1..] == rest;
      } else {
        assert Filter(s, keep) == "" + rest == rest;
        assert rest != "" ==> keep(rest[0]);
      }
    }
  }

  /** A property every character of `s` has is had by every character of a filtering of `s`. */
  lemma {:induction false} FilterPreserves(s: string, keep: char -> bool, p: char -> bool)
    requires forall i :: 0 <= i < |s| ==> p(s[i])
    ensures forall i :: 0 <= i < |Filter(s, keep)| ==> p(Filter(s, keep)[i])
  {
    if s != "" {
      FilterPreserves(s[1..], keep, p);
    }
  }

  /** Filtering keeps every copy of each kept character and none of the others. */
  lemma {:induction false} FilterCounts(s: string, keep: char -> bool)
    ensures forall c :: multiset(Filter(s, keep))[c] == if keep(c) then multiset(s)[c] else 0
  {
    if s != "" {
      FilterCounts(s[1..], keep);
      assert s == [s[0]] + s[1..];
    }
  }

  lemma FilterSkip(s: string, keep: char -> bool)
    requires s != "" && !keep(s[0])
    ensures Filter(s, keep) == Filter(s[1..], keep)
  {
    assert "" + Filter(s[1..], keep) == Filter(s[1..], keep);
  }

  lemma FilterCons(c: char, t: string, keep: char -> bool)
    ensures Filter([c] + t, keep) == (if keep(c) then [c] else "") + Filter(t, keep)
  {
    assert ([c] + t)[1..] == t;
  }

  lemma {:induction false} FilterConcat(a: string, b: string, keep: char -> bool)
    ensures Filter(a + b, keep) == Filter(a, keep) + Filter(b, keep)
  {
    if a != "" {
      assert (a + b)[1..] == a[1..] + b;
      FilterConcat(a[1..], b, keep);
    } else {
      assert a + b == b;
    }
  }

  /** A character that does not occur is found at `|s|`. */
  lemma IndexOfAbsent(s: string, c: char)
    requires forall i :: 0 <= i < |s| ==> s[i] != c
    ensures IndexOf(s, c) == |s|
  {
  }

  lemma {:induction false} FilterKeepsAll(s: string, keep: char -> bool)
    requires forall i :: 0 <= i < |s| ==> keep(s[i])
    ensures Filter(s, keep) == s
  {
    if s != "" {
      FilterKeepsAll(s[1..], keep);
    }
  }

  lemma {:induction false} FilterKeepsNone(s: string, keep: char -> bool)
    requires forall i :: 0 <= i < |s| ==> !keep(s[i])
    ensures Filter(s, keep) == ""
  {
    if s != "" {
      FilterKeepsNone(s[1..], keep);
    }
  }

  /** Filtering by a narrower class after a wider one is filtering by the narrower one. */
  lemma {:induction false} FilterFilter(s: string, wide: char -> bool, narrow: char -> bool)
    requires forall c :: narrow(c) ==> wide(c)
    ensures Filter(Filter(s, wide), narrow) == Filter(s, narrow)
  {
    if s != "" {
      FilterFilter(s[1..], wide, narrow);
      if wide(s[0]) {
        assert Filter(s, wide) == [s[0]] + Filter(s[1..], wide);
        assert Filter(s, wide)[1..] == Filter(s[1..], wide);
      } else {
        assert !narrow(s[0]);
        assert Filter(s, wide) == Filter(s[1..], wide);
        assert Filter(s, narrow) == Filter(s[1..], narrow);
      }
    }
  }

  /** `s.lstrip(chars)`, with the stripped class given as a predicate. */
  function TrimStart(s: string, drop: char -> bool): (r: string)
    ensures |r| <= |s| && r == s[|s| - |r|..]
    ensures r == "" || !drop(r[0])
    ensures forall i :: 0 <= i < |s| - |r| ==> drop(s[i])
  {
    if s != "" && drop(s[0]) then TrimStart(s[1..], drop) else s
  }

  /** `lstrip` removes a leading run of stripped characters and stops at the first other one. */
  lemma {:induction false} TrimStartRun(run: string, rest: string, drop: char -> bool)
    requires forall i :: 0 <= i < |run| ==> drop(run[i])
    requires rest == "" || !drop(rest[0])
    ensures TrimStart(run + rest, drop) == rest
  {
    if run == "" {
      assert run + rest == rest;
    } else {
      assert (run + rest)[0] == run[0] && (run + rest)[1..] == run[1..] + rest;
      TrimStartRun(run[1..], rest, drop);
    }
  }

  /** `s.rstrip(chars)` */
  function TrimEnd(s: string, drop: char -> bool): (r: string)
    ensures |r| <= |s| && r == s[..|r|]
    ensures r == "" || !drop(r[|r| - 1])
    ensures forall i :: |r| <= i < |s| ==> drop(s[i])
  {
    if s != "" && drop(s[|s| - 1]) then TrimEnd(s[..|s| - 1], drop) else s
  }

  /** `s[lo..hi]` is what remains of `s` once characters in the class are removed from both ends. */
  predicate StrippedSlice(s: string, drop: char -> bool, lo: int, hi: int) {
    && 0 <= lo <= hi <= |s|
    && (forall i :: 0 <= i < lo ==> drop(s[i]))
    && (forall i :: hi <= i < |s| ==> drop(s[i]))
  }

  /**
    `s.strip(chars)`: the result is the slice of `s` left once every leading and
    trailing character in the class is removed.
   */
  function Strip(s: string, drop: char -> bool): (r: string)
    ensures exists lo, hi :: StrippedSlice(s, drop, lo, hi) && r == s[lo..hi]
    ensures r == "" || (!drop(r[0]) && !drop(r[|r| - 1]))
  {
    var t := TrimStart(s, drop);
    var r := TrimEnd(t, drop);
    SliceBetween(s, t, r, drop);
    r
  }

  /** A prefix `r` of a suffix `t` of `s`, with only stripped characters around it, is a stripped slice of `s`. */
  lemma SliceBetween(s: string, t: string, r: string, drop: char -> bool)
    requires |t| <= |s| && t == s[|s| - |t|..] && forall i :: 0 <= i < |s| - |t| ==> drop(s[i])
    requires |r| <= |t| && r == t[..|r|] && forall i :: |r| <= i < |t| ==> drop(t[i])
    ensures StrippedSlice(s, drop, |s| - |t|, |s| - |t| + |r|) && r == s[|s| - |t|..|s| - |t| + |r|]
  {
    var lo := |s| - |t|;
    forall i | lo + |r| <= i < |s|
      ensures drop(s[i])
    {
      assert s[i] == t[i - lo];
    }
  }

  /** Filtering after `TrimStart` loses nothing the filter keeps, when trimmed characters are never kept. */
  lemma FilterTrimStart(s: string, drop: char -> bool, keep: char -> bool)
    requires forall c :: drop(c) ==> !keep(c)
    ensures Filter(TrimStart(s, drop), keep) == Filter(s, keep)
  {
    var r := TrimStart(s, drop);
    var lo := |s| - |r|;
    assert forall i :: 0 <= i < lo ==> drop(s[i]) && !keep(s[i]);
    assert s[lo..|s|] == r;
    FilterSlice(s, lo, |s|, keep);
  }

  lemma StripUnchanged(s: string, drop: char -> bool)
    requires s == "" || (!drop(s[0]) && !drop(s[|s| - 1]))
    ensures Strip(s, drop) == s
  {
  }

  /** Filtering a stripped string loses nothing the filter keeps, when stripped characters are never kept. */
  lemma {:induction false} FilterStrip(s: string, drop: char -> bool, keep: char -> bool)
    requires forall c :: drop(c) ==> !keep(c)
    ensures Filter(Strip(s, drop), keep) == Filter(s, keep)
  {
    var r := Strip(s, drop);
    var lo, hi :| StrippedSlice(s, drop, lo, hi) && r == s[lo..hi];
    assert forall i :: 0 <= i < lo ==> drop(s[i]) && !keep(s[i]);
    assert forall i :: hi <= i < |s| ==> drop(s[i]) && !keep(s[i]);
    FilterSlice(s, lo, hi, keep);
  }

  /** When nothing outside `s[lo..hi]` is kept, filtering the slice is filtering the whole. */
  lemma {:induction false} FilterSlice(s: string, lo: int, hi: int, keep: char -> bool)
    requires 0 <= lo <= hi <= |s|
    requires forall i :: 0 <= i < lo ==> !keep(s[i])
    requires forall i :: hi <= i < |s| ==> !keep(s[i])
    ensures Filter(s[lo..hi], keep) == Filter(s, keep)
  {
    KeptNoneOf(s, 0, lo, keep);
    KeptNoneOf(s, hi, |s|, keep);
    assert s == s[0..lo] + s[lo..hi] + s[hi..|s|];
    FilterBetween(s[0..lo], s[lo..hi], s[hi..|s|], keep);
  }

  lemma KeptNoneOf(s: string, lo: int, hi: int, keep: char -> bool)
    requires 0 <= lo <= hi <= |s|
    requires forall i :: lo <= i < hi ==> !keep(s[i])
    ensures Filter(s[lo..hi], keep) == ""
  {
    assert forall i :: 0 <= i < hi - lo ==> s[lo..hi][i] == s[lo + i];
    FilterKeepsNone(s[lo..hi], keep);
  }

  lemma FilterBetween(head: string, mid: string, tail: string, keep: char -> bool)
    requires Filter(head, keep) == "" && Filter(tail, keep) == ""
    ensures Filter(head + mid + tail, keep) == Filter(mid, keep)
  {
    FilterConcat(head + mid, tail, keep);
    FilterConcat(head, mid, keep);
  }

  /**
    `s.replace(pat, rep)`: every non-overlapping occurrence of `pat`, found
    scanning left to right, is replaced by `rep`; an empty `pat` puts `rep`
    before every character and at the end.
   */
  function ReplaceAll(s: string, pat: string, rep: string): string
    decreases |s|
  {
    if pat == "" then
      if s == "" then rep else rep + [s[0]] + ReplaceAll(s[1..], pat, rep)
    else if StartsWith(s, pat) then rep + ReplaceAll(s[|pat|..], pat, rep)
    else if s == "" then ""
    else [s[0]] + ReplaceAll(s[1..], pat, rep)
  }

  /** Replacing a non-empty pattern that does not occur leaves the text as it is. */
  lemma {:induction false} ReplaceAllAbsent(s: string, pat: string, rep: string)
    requires pat != "" && !Contains(s, pat)
    ensures ReplaceAll(s, pat, rep) == s
  {
    assert !StartsWith(s[0..], pat);
    assert s[0..] == s;
    if s != "" {
      forall i | 0 <= i <= |s[1..]| - |pat|
        ensures !StartsWith(s[1..][i..], pat)
      {
        assert s[1..][i..] == s[i + 1..];
      }
      ReplaceAllAbsent(s[1..], pat, rep);
    }
  }

  /** An occurrence of `pat` starts at position `i` of `s`. */
  predicate MatchAt(s: string, pat: string, i: int) {
    0 <= i <= |s| && StartsWith(s[i..], pat)
  }

  /** The first `n` characters, when no occurrence of `pat` starts among them, are copied through unchanged. */
  lemma {:induction false} ReplaceAllSkip(s: string, n: nat, pat: string, rep: string)
    requires pat != "" && n <= |s|
    requires forall i :: 0 <= i < n ==> !MatchAt(s, pat, i)
    ensures ReplaceAll(s, pat, rep) == s[..n] + ReplaceAll(s[n..], pat, rep)
  {
    if n == 0 {
      assert s[0..] == s;
    } else {
      ReplaceAllHead(s, pat, rep);
      NoMatchShift(s, n, pat);
      ReplaceAllSkip(s[1..], n - 1, pat, rep);
      ConsPrefix(s, n, ReplaceAll(s, pat, rep), ReplaceAll(s[1..], pat, rep), ReplaceAll(s[1..][n - 1..], pat, rep));
      assert s[1..][n - 1..] == s[n..];
    }
  }

  /** If `a` is `s[0]` before `b`, and `b` is `s[1..n]` before `c`, then `a` is `s[..n]` before `c`. */
  lemma ConsPrefix(s: string, n: nat, a: string, b: string, c: string)
    requires 0 < n <= |s|
    requires a == [s[0]] + b && b == s[1..][..n - 1] + c
    ensures a == s[..n] + c
  {
    assert s[..n] == [s[0]] + s[1..][..n - 1];
  }

  lemma NoMatchShift(s: string, n: nat, pat: string)
    requires 0 < n <= |s|
    requires forall i :: 0 <= i < n ==> !MatchAt(s, pat, i)
    ensures forall i :: 0 <= i < n - 1 ==> !MatchAt(s[1..], pat, i)
  {
    forall i | 0 <= i < n - 1 ensures !MatchAt(s[1..], pat, i) {
      assert s[1..][i..] == s[i + 1..];
      assert !MatchAt(s, pat, i + 1);
    }
  }

  /**
    The first occurrence of `pat`, when no occurrence starts before it and
    `pat` does not occur in the text after it, is the one replaced.
   */
  lemma ReplaceOnce(before: string, pat: string, after: string, rep: string)
    requires pat != "" && !Contains(after, pat)
    requires forall i :: 0 <= i < |before| ==> !MatchAt(before + pat + after, pat, i)
    ensures ReplaceAll(before + pat + after, pat, rep) == before + rep + after
  {
    var s := before + pat + after;
    ReplaceAllSkip(s, |before|, pat, rep);
    assert s[..|before|] == before && s[|before|..] == pat + after;
    ReplaceAllAt(pat, after, rep);
    ReplaceAllAbsent(after, pat, rep);
    ConcatAssoc(before, rep, after);
  }

  /** No occurrence of `pat` starts in text holding no character `pat` starts with. */
  lemma NoMatchBefore(before: string, pat: string, after: string)
    requires pat != "" && pat[0] !in before
    ensures forall i :: 0 <= i < |before| ==> !MatchAt(before + pat + after, pat, i)
  {
    var s := before + pat + after;
    forall i | 0 <= i < |before| ensures !MatchAt(s, pat, i) {
      assert s[i] == before[i];
      assert s[i..][0] == s[i];
    }
  }

  /** An occurrence of `pat` at the start is replaced, and the scan goes on after it. */
  lemma ReplaceAllAt(pat: string, after: string, rep: string)
    requires pat != ""
    ensures ReplaceAll(pat + after, pat, rep) == rep + ReplaceAll(after, pat, rep)
  {
    assert (pat + after)[..|pat|] == pat;
    assert (pat + after)[|pat|..] == after;
  }

  /** A first character where `pat` does not start is copied through. */
  lemma ReplaceAllHead(s: string, pat: string, rep: string)
    requires pat != "" && s != "" && !MatchAt(s, pat, 0)
    ensures ReplaceAll(s, pat, rep) == [s[0]] + ReplaceAll(s[1..], pat, rep)
  {
    assert s[0..] == s;
  }

  /** `s.split(sep)` for a one-character separator: never empty, empty pieces kept. */
  function Split(s: string, sep: char): (r: seq<string>)
    ensures |r| >= 1
    ensures forall i :: 0 <= i < |r| ==> sep !in r[i]
  {
    if s == "" then [""]
    else
      var rest := Split(s[1..], sep);
      if s[0] == sep then [""] + rest else [[s[0]] + rest[0]] + rest[1..]
  }

  /** `sep.join(pieces)` */
  function Join(pieces: seq<string>, sep: char): string
  {
    if pieces == [] then ""
    else if |pieces| == 1 then pieces[0]
    else pieces[0] + [sep] + Join(pieces[1..], sep)
  }

  lemma {:induction false} SplitWithoutSeparator(s: string, sep: char)
    requires sep !in s
    ensures Split(s, sep) == [s]
  {
    if s != "" {
      assert s[0] in s;
      assert forall c :: c in s[1..] ==> c in s;
      SplitWithoutSeparator(s[1..], sep);
      assert [s[0]] + s[1..] == s;
    }
  }

  /** Splitting at the first separator: the piece before it, then the pieces of the rest. */
  lemma {:induction false} SplitAtFirst(a: string, b: string, sep: char)
    requires sep !in a
    ensures Split(a + [sep] + b, sep) == [a] + Split(b, sep)
  {
    if a == "" {
      assert a + [sep] + b == [sep] + b;
      assert ([sep] + b)[1..] == b;
    } else {
      assert (a + [sep] + b)[1..] == a[1..] + [sep] + b;
      SplitAtFirst(a[1..], b, sep);
      assert [a[0]] + a[1..] == a;
    }
  }

  /** Joining the pieces of a split gives back the string. */
  lemma {:induction false} JoinSplit(s: string, sep: char)
    ensures Join(Split(s, sep), sep) == s
  {
    if s != "" {
      var rest := Split(s[1..], sep);
      JoinSplit(s[1..], sep);
      if s[0] == sep {
        assert Split(s, sep) == [""] + rest;
        assert ([""] + rest)[1..] == rest;
        assert Join([""] + rest, sep) == "" + [sep] + Join(rest, sep);
        assert s == [sep] + s[1..];
      } else if |rest| == 1 {
        assert Split(s, sep) == [[s[0]] + rest[0]];
        assert s == [s[0]] + s[1..];
      } else {
        var first := [s[0]] + rest[0];
        assert Split(s, sep) == [first] + rest[1..];
        assert ([first] + rest[1..])[1..] == rest[1..];
        assert Join(rest, sep) == rest[0] + [sep] + Join(rest[1..], sep);
        assert s == [s[0]] + s[1..];
      }
    }
  }

  /** Splitting a join of separator-free pieces gives back the pieces. */
  lemma {:induction false} SplitJoin(pieces: seq<string>, sep: char)
    requires |pieces| >= 1
    requires forall i :: 0 <= i < |pieces| ==> sep !in pieces[i]
    ensures Split(Join(pieces, sep), sep) == pieces
  {
    if |pieces| == 1 {
      SplitWithoutSeparator(pieces[0], sep);
    } else {
      SplitJoin(pieces[1..], sep);
      SplitAtFirst(pieces[0], Join(pieces[1..], sep), sep);
      assert [pieces[0]] + pieces[1..] == pieces;
    }
  }
}

=== FILE: url.dfy ===
/**
  Unwrapping of image-optimisation proxy URLs (`extract_actual_image_url`,
  defined identically in both scripts): when the URL contains `/_next/image`
  and its query has a non-empty `url` parameter, the first such value is
  returned, percent-decoded a second time; otherwise the URL is returned as it
  is. The query is split the way `urlparse(...).query` and `parse_qs` do it.
 */
module Url {
  import opened Wrappers
  import opened Text

  const NextImageMarker: string := "/_next/image"

  predicate IsHexDigit(c: char) { IsAsciiDigit(c) || 'a' <= c <= 'f' || 'A' <= c <= 'F' }

  function HexValue(c: char): (r: nat)
    requires IsHexDigit(c)
    ensures r < 16
  {
    if IsAsciiDigit(c) then c as int - '0' as int
    else if 'a' <= c <= 'f' then c as int - 'a' as int + 10
    else c as int - 'A' as int + 10
  }

  /** The upper-case hex digit of `n`. */
  function HexDigitChar(n: nat): (c: char)
    requires n < 16
    ensures IsHexDigit(c) && HexValue(c) == n
  {
    if n < 10 then ('0' as int + n) as char else ('A' as int + n - 10) as char
  }

  /**
    `unquote`: each `%` followed by two hex digits stands for the character with
    that code; any other `%` is kept as it is.
   */
  function PercentDecode(s: string): (r: string)
    ensures |r| <= |s|
    decreases |s|
  {
    if s == "" then ""
    else if s[0] == '%' && |s| >= 3 && IsHexDigit(s[1]) && IsHexDigit(s[2]) then
      [(16 * HexValue(s[1]) + HexValue(s[2])) as char] + PercentDecode(s[3..])
    else [s[0]] + PercentDecode(s[1..])
  }

  /** `parse_qs` reads `+` in names and values as a space before decoding them. */
  function PlusToSpace(s: string): (r: string)
    ensures |r| == |s|
    ensures forall i :: 0 <= i < |s| ==> r[i] == (if s[i] == '+' then ' ' else s[i])
  {
    seq(|s|, i requires 0 <= i < |s| => if s[i] == '+' then ' ' else s[i])
  }

  /** The characters `urlsplit` deletes from a URL before splitting it. */
  predicate IsUnsafe(c: char) { c == '\t' || c == '\r' || c == '\n' }

  predicate IsSafe(c: char) { !IsUnsafe(c) }

  /**
    `urlparse(url).query`: with tab, CR and LF deleted, the text after the first
    `?` of the part before the first `#`; empty when there is no `?` there.
   */
  function UrlQuery(url: string): (q: string)
    ensures '#' !in q
  {
    var u := Filter(url, IsSafe);
    AfterMark(u[..IndexOf(u, '#')])
  }

  /** The text after the first `?`, or empty when there is none. */
  function AfterMark(s: string): string {
    var mark := IndexOf(s, '?');
    if mark < |s| then s[mark + 1..] else ""
  }

  lemma AfterFirstMark(s: string)
    ensures var mark := IndexOf(s, '?'); AfterMark(s) == if mark < |s| then s[mark + 1..] else ""
  {
  }

  /** One decoded `name=value` pair of a query. */
  datatype Param = Param(name: string, value: string)

  /**
    One `&`-separated piece of a query as `parse_qsl` reads it (blank values not
    kept, lenient parsing): empty pieces, pieces without `=` and pieces with an
    empty value give nothing; otherwise the name and value, split at the first
    `=`, each with `+` read as a space and then percent-decoded.
   */
  function ParsePiece(piece: string): (r: Option<Param>)
    ensures r.Some? <==> IndexOf(piece, '=') + 1 < |piece|
  {
    var eq := IndexOf(piece, '=');
    if piece == "" || eq == |piece| then None
    else
      var rawName, rawValue := piece[..eq], piece[eq + 1..];
      if rawValue == "" then None
      else Some(Param(PercentDecode(PlusToSpace(rawName)), PercentDecode(PlusToSpace(rawValue))))
  }

  function ParsePieces(pieces: seq<string>): (r: seq<Param>)
    ensures |r| <= |pieces|
  {
    if pieces == [] then []
    else
      (match ParsePiece(pieces[0]) case Some(p) => [p] case None => [])
      + ParsePieces(pieces[1..])
  }

  /** `parse_qsl(query)`: the decoded pairs in query order. */
  function ParseQsl(query: string): seq<Param>
  {
    ParsePieces(Split(query, '&'))
  }

  /** `params[i]` is the first pair named `key`. */
  predicate FirstNamed(params: seq<Param>, key: string, i: int) {
    && 0 <= i < |params|
    && params[i].name == key
    && forall j :: 0 <= j < i ==> params[j].name != key
  }

  /** `parse_qs(query)[key][0]` when `key` is present: the value of the first pair named `key`. */
  function FirstValue(params: seq<Param>, key: string): (r: Option<string>)
    ensures r.None? <==> forall i :: 0 <= i < |params| ==> params[i].name != key
    ensures r.Some? ==> exists i :: FirstNamed(params, key, i) && params[i].value == r.value
  {
    if params == [] then None
    else if params[0].name == key then Some(params[0].value)
    else
      var r := FirstValue(params[1..], key);
      assert forall i :: 1 <= i < |params| ==> params[i] == params[1..][i - 1];
      r
  }

  /** `extract_actual_image_url` */
  function ExtractActualImageUrl(url: string): (r: string)
    ensures !Contains(url, NextImageMarker) ==> r == url
    ensures FirstValue(ParseQsl(UrlQuery(url)), "url").None? ==> r == url
    ensures Contains(url, NextImageMarker) && FirstValue(ParseQsl(UrlQuery(url)), "url").Some? ==>
      r == PercentDecode(FirstValue(ParseQsl(UrlQuery(url)), "url").value)
  {
    if Contains(url, NextImageMarker) then
      match FirstValue(ParseQsl(UrlQuery(url)), "url")
      case Some(actual) => PercentDecode(actual)
      case None => url
    else url
  }

  /** A string with no `%` is left as it is by percent-decoding. */
  lemma {:induction false} DecodeWithoutPercent(s: string)
    requires '%' !in s
    ensures PercentDecode(s) == s
  {
    if s != "" {
      assert s[0] in s;
      assert forall c :: c in s[1..] ==> c in s;
      DecodeWithoutPercent(s[1..]);
      assert s == [s[0]] + s[1..];
    }
  }

  lemma {:induction false} PlusToSpaceWithoutPlus(s: string)
    requires '+' !in s
    ensures PlusToSpace(s) == s
  {
    assert forall i :: 0 <= i < |s| ==> s[i] in s;
  }

  /**
    A URL-component encoder for ASCII text: every character but an ASCII letter
    or digit becomes `%XX`. Python's `quote(s, safe='')` also leaves `_.-~`
    unescaped, which decodes to the same text.
   */
  function EncodeChar(c: char): (r: string)
    requires c as int < 128
    ensures forall i :: 0 <= i < |r| ==> IsAsciiAlnum(r[i]) || r[i] == '%'
  {
    if IsAsciiAlnum(c) then [c]
    else ['%', HexDigitChar(c as int / 16), HexDigitChar(c as int % 16)]
  }

  function PercentEncode(t: string): (r: string)
    requires IsAscii(t)
    ensures forall i :: 0 <= i < |r| ==> IsAsciiAlnum(r[i]) || r[i] == '%'
    ensures t != "" ==> r != ""
  {
    if t == "" then "" else EncodeChar(t[0]) + PercentEncode(t[1..])
  }

  lemma DecodeEncodedChar(c: char, rest: string)
    requires c as int < 128
    ensures PercentDecode(EncodeChar(c) + rest) == [c] + PercentDecode(rest)
  {
    var s := EncodeChar(c) + rest;
    if IsAsciiAlnum(c) {
      assert s[0] == c && s[1..] == rest;
    } else {
      assert s[0] == '%' && s[3..] == rest;
      assert (16 * HexValue(s[1]) + HexValue(s[2])) == c as int;
    }
  }

  /** Percent-decoding undoes percent-encoding. */
  lemma {:induction false} DecodeEncode(t: string)
    requires IsAscii(t)
    ensures PercentDecode(PercentEncode(t)) == t
  {
    if t != "" {
      DecodeEncodedChar(t[0], PercentEncode(t[1..]));
      DecodeEncode(t[1..]);
      assert t == [t[0]] + t[1..];
    }
  }

  /** Every character of `s` satisfies `p` (named so that requirements read as sentences). */
  predicate All(s: string, p: char -> bool) {
    forall i :: 0 <= i < |s| ==> p(s[i])
  }

  predicate NotQueryOrFragmentMark(c: char) { c != '?' && c != '#' && IsSafe(c) }
  predicate NotPieceOrFragmentMark(c: char) { c != '&' && c != '#' && IsSafe(c) }
  predicate NotFragmentMark(c: char) { c != '#' && IsSafe(c) }

  /** The query of `prefix?url=value...` begins right after the `?`. */
  lemma {:induction false} QueryOfProxyUrl(prefix: string, value: string, suffix: string)
    requires All(prefix, NotQueryOrFragmentMark)
    requires All(value, NotPieceOrFragmentMark)
    requires All(suffix, NotFragmentMark)
    ensures UrlQuery(prefix + "?url=" + value + suffix) == "url=" + value + suffix
  {
    var rest := "url=" + value + suffix;
    var url := prefix + "?" + rest;
    assert url == prefix + "?url=" + value + suffix;
    assert All(rest, NotFragmentMark);
    assert All(url, NotFragmentMark) by {
      forall i | 0 <= i < |url| ensures NotFragmentMark(url[i]) {
        if i < |prefix| {
          assert url[i] == prefix[i];
        } else if i > |prefix| {
          assert url[i] == rest[i - |prefix| - 1];
        }
      }
    }
    QueryWithoutFragment(url);
    QueryMark(prefix, rest);
  }

  /** Without tab, CR, LF or `#`, the query is simply what follows the first `?`. */
  lemma QueryWithoutFragment(url: string)
    requires All(url, NotFragmentMark)
    ensures var mark := IndexOf(url, '?');
      UrlQuery(url) == if mark < |url| then url[mark + 1..] else ""
  {
    QueryAfterMark(url);
    AfterFirstMark(url);
  }

  /** With nothing deleted and no fragment, the query is looked for in the whole URL. */
  lemma QueryAfterMark(url: string)
    requires All(url, NotFragmentMark)
    ensures UrlQuery(url) == AfterMark(url)
  {
    SafeWithoutFragment(url);
    FilterKeepsAll(url, IsSafe);
    IndexOfAbsent(url, '#');
    var u := Filter(url, IsSafe);
    assert u[..IndexOf(u, '#')] == url;
  }

  lemma SafeWithoutFragment(url: string)
    requires All(url, NotFragmentMark)
    ensures forall i :: 0 <= i < |url| ==> IsSafe(url[i])
    ensures forall i :: 0 <= i < |url| ==> url[i] != '#'
  {
  }

  /** The text after the first `?` of `prefix?rest`, when `prefix` has none, is `rest`. */
  lemma QueryMark(prefix: string, rest: string)
    requires All(prefix, NotQueryOrFragmentMark)
    ensures var s := prefix + "?" + rest; IndexOf(s, '?') == |prefix| && s[|prefix| + 1..] == rest
  {
    var s := prefix + "?" + rest;
    assert s[|prefix|] == '?';
    assert forall i :: 0 <= i < |prefix| ==> s[i] == prefix[i];
  }

  /** The first piece of `url=value&...` binds `url` to `value`, `+` read as space and decoded once. */
  lemma {:induction false} ParseProxyQuery(value: string, suffix: string)
    requires value != ""
    requires All(value, NotPieceOrFragmentMark)
    requires suffix == "" || suffix[0] == '&'
    ensures FirstValue(ParseQsl("url=" + value + suffix), "url") == Some(PercentDecode(PlusToSpace(value)))
  {
    var piece := "url=" + value;
    assert forall i :: 0 <= i < |piece| ==> piece[i] != '&';
    assert '&' !in piece;
    var pieces := Split(piece + suffix, '&');
    FirstPiece(piece, suffix);
    UrlPiece(value);
    assert ParsePieces(pieces)[0] == Param("url", PercentDecode(PlusToSpace(value)));
  }

  /** A piece without `&` is the first piece of a query that continues with `&...` or ends. */
  lemma FirstPiece(piece: string, suffix: string)
    requires '&' !in piece
    requires suffix == "" || suffix[0] == '&'
    ensures Split(piece + suffix, '&') != [] && Split(piece + suffix, '&')[0] == piece
  {
    if suffix == "" {
      assert piece + suffix == piece;
      SplitWithoutSeparator(piece, '&');
    } else {
      assert piece + suffix == piece + ['&'] + suffix[1..];
      SplitAtFirst(piece, suffix[1..], '&');
    }
  }

  /** The piece `url=value` reads as the pair named `url` with `value` decoded. */
  lemma UrlPiece(value: string)
    requires value != ""
    ensures ParsePiece("url=" + value) == Some(Param("url", PercentDecode(PlusToSpace(value))))
  {
    var piece := "url=" + value;
    assert piece[3] == '=' && piece[0] != '=' && piece[1] != '=' && piece[2] != '=';
    assert IndexOf(piece, '=') == 3;
    assert piece[..3] == "url" && piece[4..] == value;
    PlusToSpaceWithoutPlus("url");
    DecodeWithoutPercent(PlusToSpace("url"));
  }

  /**
    A proxy URL `prefix?url=value` (further parameters may follow after `&`)
    resolves to `value` decoded twice: once by `parse_qs`, once by `unquote`.
   */
  lemma {:induction false} ProxyValueDecodedTwice(prefix: string, value: string, suffix: string)
    requires Contains(prefix, NextImageMarker)
    requires All(prefix, NotQueryOrFragmentMark)
    requires value != "" && All(value, NotPieceOrFragmentMark)
    requires suffix == "" || suffix[0] == '&'
    requires All(suffix, NotFragmentMark)
    ensures ExtractActualImageUrl(prefix + "?url=" + value + suffix)
         == PercentDecode(PercentDecode(PlusToSpace(value)))
  {
    var url := prefix + "?url=" + value + suffix;
    assert url == prefix + ("?url=" + value + suffix);
    ContainsExtend(prefix, "?url=" + value + suffix, NextImageMarker);
    QueryOfProxyUrl(prefix, value, suffix);
    ParseProxyQuery(value, suffix);
  }

  /**
    A target without `%` that the proxy carries percent-encoded in its `url`
    parameter comes back exactly.
   */
  lemma {:induction false} ProxyRoundTrip(prefix: string, target: string, suffix: string)
    requires Contains(prefix, NextImageMarker)
    requires All(prefix, NotQueryOrFragmentMark)
    requires target != "" && IsAscii(target) && '%' !in target
    requires suffix == "" || suffix[0] == '&'
    requires All(suffix, NotFragmentMark)
    ensures ExtractActualImageUrl(prefix + "?url=" + PercentEncode(target) + suffix) == target
  {
    var value := PercentEncode(target);
    EncodedIsPlain(target);
    ProxyValueDecodedTwice(prefix, value, suffix);
    PlusToSpaceWithoutPlus(value);
    DecodeEncode(target);
    DecodeWithoutPercent(target);
  }

  /** An encoded value holds none of the characters that end a piece or the query, and no `+`. */
  lemma EncodedIsPlain(t: string)
    requires IsAscii(t)
    ensures All(PercentEncode(t), NotPieceOrFragmentMark) && '+' !in PercentEncode(t)
  {
    var r := PercentEncode(t);
    assert forall i :: 0 <= i < |r| ==> r[i] != '+';
  }

  lemma EncodeExample()
    ensures PercentEncode("a%41") == "a%2541"
  {
    var t := "a%41";
    assert t[1..] == "%41" && t[2..] == "41" && t[3..] == "1" && t[4..] == "";
    assert EncodeChar('%') == "%25";
    assert PercentEncode(t[3..]) == "1";
    assert PercentEncode(t[2..]) == "41";
    assert PercentEncode(t[1..]) == "%2541";
  }

  lemma DecodeExample()
    ensures PercentDecode("a%41") == "aA"
  {
    var once := "a%41";
    assert once[1..] == "%41" && once[1..][3..] == "";
    assert PercentDecode(once[1..]) == "A";
  }

  /**
    The second decoding is visible when the target itself holds an escape: the
    target `a%41`, carried as `a%2541`, comes back as `aA`.
   */
  lemma DoubleDecodeExample()
    ensures PercentEncode("a%41") == "a%2541"
    ensures ExtractActualImageUrl(NextImageMarker + "?url=" + PercentEncode("a%41")) == "aA"
  {
    EncodeExample();
    MarkerPrefix();
    var value := PercentEncode("a%41");
    EncodedExampleChars();
    ProxyValueDecodedTwice(NextImageMarker, value, "");
    assert NextImageMarker + "?url=" + value + "" == NextImageMarker + "?url=" + value;
    PlusToSpaceWithoutPlus(value);
    DecodeEncode("a%41");
    DecodeExample();
  }

  lemma EncodedExampleChars()
    ensures All("a%2541", NotPieceOrFragmentMark) && '+' !in "a%2541"
  {
  }

  /** The marker alone can serve as the part of a proxy URL before its query. */
  lemma MarkerPrefix()
    ensures Contains(NextImageMarker, NextImageMarker)
    ensures All(NextImageMarker, NotQueryOrFragmentMark)
  {
    assert StartsWith(NextImageMarker[0..], NextImageMarker);
  }
}

=== FILE: wrappers.dfy ===
/** `Option` and `Result`. */
module Wrappers {

  /** A value that may be absent: Python's `None` or a present value. */
  datatype Option<+T> = None | Some(value: T)

  /** The outcome of an operation that can raise: a value or the error raised. */
  datatype Result<+T, +E> = Success(value: T) | Failure(error: E)
}
